=== FILE: README.md ===
# RDF-to-Snowflake demo: validator, dry-run tester and analyst query builder

This Dafny project models the checking and query-building logic of the
RDF-to-Snowflake semantic-views demo:

- **The SQL validator** (`tests/comprehensive_validation.py`). It parses the
  demo's SQL scripts into function definitions, function calls and `USE`
  context settings. It then runs five checks:
  - function signatures: undefined functions and parameter-count mismatches;
  - context consistency;
  - dependency order;
  - syntax patterns;
  - warehouse usage.

  It exits with the number of ERROR issues. Its two parameter-list
  splitters are modelled twice: once as the character loop as written, and
  once as a reference definition ("the pieces between the top-level
  commas"). A proof connects the two.
- **The dry-run integration tester** (`tests/dry_run_integration_test.py`).
  It holds an issue list and a success flag; an ERROR clears the flag. It
  runs the following steps and turns the flag into a verdict and an exit
  code:
  - the SQL-syntax warnings;
  - the required-script check of the execution order;
  - the validator's exit status;
  - the required tables and views.
- **The simulated Cortex Analyst** (`streamlit_app/cortex_analyst_chat.py`):
  - keyword routing of a question;
  - the text of the `SEMANTIC_VIEW` query it sends;
  - the query-builder form's default selections.

Modules:

| module | file | contents |
|---|---|---|
| `Text` | `text.dfy` | Python `strip`, `split()[0]`, `in`, `join`, ASCII `lower`/`upper`, decimal rendering; a line splitter that is only a proof device for reading the query text back |
| `Registry` | `registry.dfy` | a dictionary filled by repeated `d[k] = v` (last write wins) |
| `ParamSplit` | `param_split.dfy` | `_parse_parameters` and `_parse_call_parameters` |
| `Severities` | `severity.dfy` | ERROR / WARNING / INFO |
| `Validation` | `validation.dfy` | the validator's data, checks, error count and exit status |
| `DryRun` | `dry_run.dfy` | the integration tester |
| `Analyst` | `analyst.dfy` | routing, query text, form |

Regular-expression matching is outside the model. The matches it would
produce are inputs, including:
- definition and call matches with their line numbers;
- `USE` statements in file order;
- names after `CREATE [OR REPLACE] TABLE|VIEW`;
- syntax-pattern hits;
- the set of issue patterns a file matches.

Issues carry a structured subject (function name, context key, pattern)
instead of the free-text description.

## Model

| member | source | states |
|---|---|---|
| Text.Strip | RDF_to_Snowflake_Demo/tests/comprehensive_validation.py:179 | the stripped text is a slice of the input with only whitespace before and after it; it starts and ends with a non-space, and it is empty exactly when the input is all whitespace |
| Text.StripFacts | RDF_to_Snowflake_Demo/tests/comprehensive_validation.py:193 | what `strip` removes from either end is whitespace only, so the result is trimmed, and blank exactly when the input was |
| Text.StripOfTrimmed | RDF_to_Snowflake_Demo/tests/comprehensive_validation.py:199-200 | stripping an already trimmed piece leaves it unchanged |
| Text.FirstToken | RDF_to_Snowflake_Demo/tests/comprehensive_validation.py:202 | `p.split()[0]` of a non-blank piece is a non-empty run of non-space characters, preceded only by whitespace and followed by whitespace or the end |
| Text.SplitOnJoin | RDF_to_Snowflake_Demo/streamlit_app/cortex_analyst_chat.py:122-129 | splitting a newline-joined list of lines that contain no newline gives back the lines |
| Text.JoinEmpty | RDF_to_Snowflake_Demo/streamlit_app/cortex_analyst_chat.py:111-112 | a `", ".join` is empty exactly when the list is empty or holds one empty string |
| Text.JoinAvoids | RDF_to_Snowflake_Demo/streamlit_app/cortex_analyst_chat.py:125 | a character absent from the separator and from every piece is absent from the join |
| Text.LowerIdempotent | RDF_to_Snowflake_Demo/streamlit_app/cortex_analyst_chat.py:143 | lower-casing twice is lower-casing once |
| Text.DecimalRoundTrip | RDF_to_Snowflake_Demo/streamlit_app/cortex_analyst_chat.py:128 | reading back the decimal rendering of a natural number gives the number |
| Text.IntToString | RDF_to_Snowflake_Demo/streamlit_app/cortex_analyst_chat.py:128 | `str(limit)`: a leading minus sign exactly for a negative number, and the digits after it read back as the number's magnitude |
| Registry.LastIndexOf | RDF_to_Snowflake_Demo/tests/comprehensive_validation.py:126 | the index found holds the key and no later entry does; none is found only when no entry holds the key |
| Registry.LastWins | RDF_to_Snowflake_Demo/tests/comprehensive_validation.py:126 | after the assignments a key is present iff it was present or some entry names it, and then it maps to the value of the last such entry |
| ParamSplit.LastSeparatorBelow | RDF_to_Snowflake_Demo/tests/comprehensive_validation.py:192 | the separator found is a comma at nesting level zero, and no position between it and the bound is one |
| ParamSplit.ScanFollowsSegments | RDF_to_Snowflake_Demo/tests/comprehensive_validation.py:183-197 | after any prefix, the loop's depth and quote variables equal the reference nesting, `params` holds the stripped pieces before the last top-level comma and `current_param` the piece after it |
| ParamSplit.SegmentsSnoc | RDF_to_Snowflake_Demo/tests/comprehensive_validation.py:192-197 | one more character either opens an empty piece (a comma at level zero) or extends the last piece |
| ParamSplit.ParseParameters | RDF_to_Snowflake_Demo/tests/comprehensive_validation.py:177-202 | the names are the first words of the non-blank stripped top-level pieces; blank text gives no names; each name is a non-empty word |
| ParamSplit.ParseCallParameters | RDF_to_Snowflake_Demo/tests/comprehensive_validation.py:204-235 | the arguments are the non-blank stripped pieces between commas outside parentheses and quotes; blank text gives none; each argument is non-empty and trimmed |
| ParamSplit.SegmentsJoin | RDF_to_Snowflake_Demo/tests/comprehensive_validation.py:187-197 | re-joining the pieces with commas gives back the parameter text |
| ParamSplit.SegmentCount | RDF_to_Snowflake_Demo/tests/comprehensive_validation.py:192-197 | there is one piece more than there are top-level commas |
| ParamSplit.ParenthesizedCommasDoNotSplit | RDF_to_Snowflake_Demo/tests/comprehensive_validation.py:188-192 | a comma inside a parenthesised group, such as `NUMBER(10, 2)`, is never a separator of a definition list |
| ParamSplit.QuotedSpansAreInert | RDF_to_Snowflake_Demo/tests/comprehensive_validation.py:216-219 | inside a quoted span commas and parentheses change neither the nesting nor the quote, and the same quote character closes it |
| ParamSplit.InsideQuote | RDF_to_Snowflake_Demo/tests/comprehensive_validation.py:216-218 | text without the open quote character leaves the quote open and the nesting unchanged |
| Validation.DefinitionsLastWins | RDF_to_Snowflake_Demo/tests/comprehensive_validation.py:126 | a definition not followed by another of the same upper-cased name is the one recorded under that name |
| Validation.DefinedNames | RDF_to_Snowflake_Demo/tests/comprehensive_validation.py:109-126 | a name is defined iff some definition match upper-cases to it |
| Validation.CheckCall | RDF_to_Snowflake_Demo/tests/comprehensive_validation.py:241-265 | at most one ERROR per call, at the call's file and line; UNDEFINED_FUNCTION iff the name is not defined; PARAMETER_MISMATCH iff it is defined with a different parameter count; no issue iff the call matches |
| Validation.ValidateFunctionSignatures | RDF_to_Snowflake_Demo/tests/comprehensive_validation.py:237-265 | one ERROR for each call that names no definition or a definition with another parameter count: every issue is the ERROR of a faulty call, at its file and line, naming it, UNDEFINED_FUNCTION when the name has no definition and PARAMETER_MISMATCH otherwise; every faulty call has such an issue, and the number of issues is the number of faulty calls; UNDEFINED_FUNCTION is reported for a name iff some call of it is undefined, PARAMETER_MISMATCH iff some call of it has another arity |
| Validation.SignaturesClean | RDF_to_Snowflake_Demo/tests/comprehensive_validation.py:241-265 | the signature check reports nothing iff every call names a defined function with the same parameter count |
| Validation.ContextLastWins | RDF_to_Snowflake_Demo/tests/comprehensive_validation.py:173 | the context records the value of the last USE statement of each kind |
| Validation.ContextKeys | RDF_to_Snowflake_Demo/tests/comprehensive_validation.py:171-173 | a kind is in the context iff some USE statement sets it |
| Validation.KindsIssuesReport | RDF_to_Snowflake_Demo/tests/comprehensive_validation.py:282-300 | over the checked kinds: a WARNING iff the kind is set to an unexpected value; an ERROR iff it is unset in a UDF script; every issue is about the script's path |
| Validation.CheckContextReports | RDF_to_Snowflake_Demo/tests/comprehensive_validation.py:267-300 | the Snowsight deployment script gets nothing; any other script gets CONTEXT_INCONSISTENCY exactly for keys with a value other than the expected one and MISSING_CONTEXT exactly for keys a UDF script does not set |
| Validation.KindsErrorCount | RDF_to_Snowflake_Demo/tests/comprehensive_validation.py:292-300 | the ERRORs of one script's context check are exactly its keys missing from a UDF script; the inconsistency WARNINGs never count |
| Validation.ContextErrorCount | RDF_to_Snowflake_Demo/tests/comprehensive_validation.py:267-300 | the context check over all scripts raises one ERROR per key missing from a UDF script other than the Snowsight deployment script |
| Validation.ValidateDependencyOrder | RDF_to_Snowflake_Demo/tests/comprehensive_validation.py:310-320 | every issue is an ERROR of category DEPENDENCY_ORDER, and there are exactly as many as there are UDF scripts without a WAREHOUSE setting |
| Validation.DependencyOrderFlags | RDF_to_Snowflake_Demo/tests/comprehensive_validation.py:308-320 | a path is flagged iff it is a UDF script whose context has no WAREHOUSE |
| Validation.WarehouseFlagsMeaning | RDF_to_Snowflake_Demo/tests/comprehensive_validation.py:367-378 | the two flags are set iff some script contains `CREATE WAREHOUSE` / `USE WAREHOUSE`, case-insensitively |
| Validation.ValidateWarehouseUsage | RDF_to_Snowflake_Demo/tests/comprehensive_validation.py:380-388 | a WAREHOUSE_DEPENDENCY WARNING is reported iff some script uses a warehouse and none creates one; there is at most one such issue, with an empty file path, line 0 and no subject |
| Validation.ValidateSyntaxPatterns | RDF_to_Snowflake_Demo/tests/comprehensive_validation.py:337-358 | one SYNTAX_ERROR ERROR per pattern hit, at the hit's file and line and naming its pattern; the ERROR count is the number of hits, and a pattern is reported iff some hit is of it |
| Validation.UnreadableFiles | RDF_to_Snowflake_Demo/tests/comprehensive_validation.py:94-101 | one FILE_PARSING ERROR at line 0 per file that could not be parsed; the ERROR count is the number of such files, and a path is flagged iff it is one of them |
| Validation.Contexts | RDF_to_Snowflake_Demo/tests/comprehensive_validation.py:158-175 | each script keeps its path, and a context kind is set for it iff the script has a USE statement of that kind |
| Validation.ErrorCount | RDF_to_Snowflake_Demo/tests/comprehensive_validation.py:451 | the count is zero iff no issue is an ERROR, and it is at most the number of issues |
| Validation.ErrorCountAppend | RDF_to_Snowflake_Demo/tests/comprehensive_validation.py:451 | the ERROR count of a concatenation is the sum of the counts |
| Validation.ExitCodeBreakdown | RDF_to_Snowflake_Demo/tests/comprehensive_validation.py:47-69 | the ERROR count (the exit code) is the number of unreadable files, plus the number of calls that name no definition or one of another arity, plus the number of context keys missing from UDF scripts other than the Snowsight script, plus the number of UDF scripts without a warehouse, plus the number of syntax hits; context inconsistencies and the warehouse check never add to it |
| Validation.MissingWarehouseCountsTwice | RDF_to_Snowflake_Demo/tests/comprehensive_validation.py:292-320 | a UDF script other than the Snowsight script that sets no warehouse costs at least two ERRORs, one from the context check and one from the dependency check |
| Validation.ProcessExitStatus | RDF_to_Snowflake_Demo/tests/comprehensive_validation.py:451-452 | the status the parent sees is below 256 and equals the ERROR count only while that count is below 256 |
| Validation.ExitStatusWrapsAt256 | RDF_to_Snowflake_Demo/tests/comprehensive_validation.py:451-452 | a run with 256 ERRORs exits with status 0 |
| Validation.SaturatedExitStatus | RDF_to_Snowflake_Demo/tests/comprehensive_validation.py:451-452 | the clamped status is below 256, zero iff there is no ERROR, and equal to the count below 256 |
| Analyst.Plan | RDF_to_Snowflake_Demo/streamlit_app/cortex_analyst_chat.py:145-174 | every branch asks for at least one dimension and one metric; only the high-value and recent branches carry a filter |
| Analyst.FirstMatchIsFirst | RDF_to_Snowflake_Demo/streamlit_app/cortex_analyst_chat.py:145-174 | the rule chosen is one whose test holds and no earlier rule's test does, or the default when none holds |
| Analyst.ClassifyFollowsTable | RDF_to_Snowflake_Demo/streamlit_app/cortex_analyst_chat.py:143-174 | the if-chain on the lower-cased question picks the first rule of the keyword table it satisfies |
| Analyst.ClassifyIgnoresCase | RDF_to_Snowflake_Demo/streamlit_app/cortex_analyst_chat.py:143 | routing gives the same branch for the question and its upper- or lower-cased form |
| Analyst.RevenueWins | RDF_to_Snowflake_Demo/streamlit_app/cortex_analyst_chat.py:145 | any question mentioning revenue or sales takes the revenue branch, whatever else it mentions |
| Analyst.TopCustomersByRevenue | RDF_to_Snowflake_Demo/streamlit_app/cortex_analyst_chat.py:145-150 | "top customers by revenue" is routed to the revenue branch, not the top-customers branch |
| Analyst.DefaultIsRevenue | RDF_to_Snowflake_Demo/streamlit_app/cortex_analyst_chat.py:170-174 | the fallback asks for the same data as the revenue branch |
| Analyst.QueryParts | RDF_to_Snowflake_Demo/streamlit_app/cortex_analyst_chat.py:111-118 | a DIMENSIONS clause comes first and a METRICS clause last, each present iff its comma-joined list is non-empty |
| Analyst.ClausePresence | RDF_to_Snowflake_Demo/streamlit_app/cortex_analyst_chat.py:111-118 | both clauses are present iff neither list is empty or `[""]`, and none is present iff both are |
| Analyst.QueryLayout | RDF_to_Snowflake_Demo/streamlit_app/cortex_analyst_chat.py:120-129 | when no input has a line break, the query has eight lines: the SELECT line, the view, the clauses, a WHERE line that is bare indentation iff there is no filter and otherwise `WHERE` followed by the filter, and a LIMIT line whose digits read back as the limit |
| Analyst.WhereLine | RDF_to_Snowflake_Demo/streamlit_app/cortex_analyst_chat.py:120 | the WHERE line is bare indentation exactly when the filter is absent or empty |
| Analyst.FilteredWhereLine | RDF_to_Snowflake_Demo/streamlit_app/cortex_analyst_chat.py:120-129 | a filtered query with single-line inputs has, as its fifth line, the indentation then `WHERE` and the filter |
| Analyst.SimulatedQueryShape | RDF_to_Snowflake_Demo/streamlit_app/cortex_analyst_chat.py:137-176 | every routed query has both clauses and `LIMIT 10`; it has a WHERE clause exactly on the high-value and recent branches, where it reads `WHERE high_value_orders` and `WHERE recent_orders` respectively |
| Analyst.DefaultSelection | RDF_to_Snowflake_Demo/streamlit_app/cortex_analyst_chat.py:278 | the default selection is the first two options, or all of them when there are fewer |
| Analyst.DefaultSelectionStable | RDF_to_Snowflake_Demo/streamlit_app/cortex_analyst_chat.py:284 | taking the default of a default changes nothing, and lists of at most two are kept whole |
| Analyst.FormQuery | RDF_to_Snowflake_Demo/streamlit_app/cortex_analyst_chat.py:289-297 | the form sends a query iff some dimension or metric is selected |
| Analyst.FormQueryUnfiltered | RDF_to_Snowflake_Demo/streamlit_app/cortex_analyst_chat.py:291-297 | the form's query never has a WHERE clause |
| Analyst.DefaultFormSubmits | RDF_to_Snowflake_Demo/streamlit_app/cortex_analyst_chat.py:275-290 | with the default selections, a query is sent whenever the view offers any dimension or metric |
| DryRun.NewTester | RDF_to_Snowflake_Demo/tests/dry_run_integration_test.py:15-18 | a new tester has no issues and is consistent (success with no ERROR) |
| DryRun.AddIssue | RDF_to_Snowflake_Demo/tests/dry_run_integration_test.py:230-234 | the issue is appended and nothing else changes in the list; success is cleared iff it was already clear or the issue is an ERROR; the rule "success iff no ERROR" is kept |
| DryRun.AddAllEffect | RDF_to_Snowflake_Demo/tests/dry_run_integration_test.py:230-234 | adding records one by one appends them all, and success survives iff none is an ERROR |
| DryRun.PatternWarnings | RDF_to_Snowflake_Demo/tests/dry_run_integration_test.py:83-91 | a file gets a WARNING for a pattern iff it matches that pattern, and only WARNINGs |
| DryRun.SyntaxRecordsFor | RDF_to_Snowflake_Demo/tests/dry_run_integration_test.py:52-63 | the syntax step records an ERROR iff some file could not be read |
| DryRun.TestSqlSyntax | RDF_to_Snowflake_Demo/tests/dry_run_integration_test.py:45-65 | success survives the syntax step iff every SQL file is readable; earlier issues are kept |
| DryRun.BaseName | RDF_to_Snowflake_Demo/tests/dry_run_integration_test.py:129 | `Path.name`: the result has no `/` and is the end of the path after its last `/`, or the whole path when it has none |
| DryRun.DependencyRecords | RDF_to_Snowflake_Demo/tests/dry_run_integration_test.py:118-129 | a script under `python_udfs` gets the INFO "<file name>: Missing <ctx> (should be set)" iff its upper-cased text lacks `ctx`, for `USE DATABASE` and `USE SCHEMA`; there are no other records, so none outside the UDF directory and at most two |
| DryRun.OrderRecordsFor | RDF_to_Snowflake_Demo/tests/dry_run_integration_test.py:108-114 | the order step records an ERROR iff some required script is missing |
| DryRun.TestExecutionOrder | RDF_to_Snowflake_Demo/tests/dry_run_integration_test.py:93-116 | success survives the order step iff all six scripts of the execution order exist |
| DryRun.TestUdfConsistency | RDF_to_Snowflake_Demo/tests/dry_run_integration_test.py:131-153 | success survives iff the validator did not exit with a non-zero status; status 0 leaves the tester unchanged; a non-zero status adds exactly the ERROR "UDF consistency validation failed"; a launch that raised adds exactly the WARNING "Could not run UDF validation: " followed by the exception text |
| DryRun.WrappedStatusHidesErrors | RDF_to_Snowflake_Demo/tests/dry_run_integration_test.py:143 | with the validator's status as written, 256 ERRORs leave the consistency step passing |
| DryRun.SaturatedStatusReportsErrors | RDF_to_Snowflake_Demo/tests/dry_run_integration_test.py:143-148 | with the clamped status, the consistency step fails exactly when the validator found an ERROR |
| DryRun.Missing | RDF_to_Snowflake_Demo/tests/dry_run_integration_test.py:193-197 | a required name is missing iff its upper-cased form was not created |
| DryRun.CheckObjectCreation | RDF_to_Snowflake_Demo/tests/dry_run_integration_test.py:178-197 | for each required name, a "not found" WARNING iff its upper-cased form was not created, and every added issue is the WARNING of some required name that was not created; one per missing name; earlier issues and success are unchanged |
| DryRun.TestDataFlow | RDF_to_Snowflake_Demo/tests/dry_run_integration_test.py:155-176 | the data-flow step only adds WARNINGs: a "Required TABLE" WARNING for a required table iff no CREATE statement names it, and a "Required VIEW" WARNING for a required view iff none names it, one per missing object; earlier issues are kept and success is unchanged |
| DryRun.RunComprehensiveTest | RDF_to_Snowflake_Demo/tests/dry_run_integration_test.py:20-43 | the whole run ends with success iff no ERROR was recorded |
| DryRun.RunSucceeds | RDF_to_Snowflake_Demo/tests/dry_run_integration_test.py:20-43 | the run succeeds iff every SQL file is readable, every ordered script exists and the validator did not exit with a non-zero status |
| DryRun.FinalVerdict | RDF_to_Snowflake_Demo/tests/dry_run_integration_test.py:242-268 | "all passed" iff there are no issues; "failed" iff some issue is an ERROR; otherwise "passed with warnings" |
| DryRun.VerdictMatchesSuccess | RDF_to_Snowflake_Demo/tests/dry_run_integration_test.py:236-268 | the report says "failed" iff the success flag is clear |
| DryRun.ExitCode | RDF_to_Snowflake_Demo/tests/dry_run_integration_test.py:280 | the tester exits 0 iff it succeeded, and 1 otherwise |

## Left out

- Regular-expression matching is left out. This covers the definition and call patterns, `USE`, the two syntax checks, the `CREATE TABLE|VIEW` names and the dry run's issue patterns. The matches are inputs, because Dafny has no regex engine and the matching is Python's library.
- Line numbers (`content[:match.start()].count('\n') + 1`) are inputs, carried on each match.
- File-system access is left out: globbing, sorting and reading files. The files' contents, the set of existing scripts and the list of unreadable files are inputs.
- Issue descriptions and suggestions of the validator are left out. An issue carries a structured subject instead. Only the dry run's texts are kept, because its issues are nothing but severity and text.
- Printing is left out. This covers `_generate_report`, the dry run's report text (only its verdict is modelled), and the definition/call summaries.
- Python's Unicode `lower`/`upper` is left out. Case mapping is ASCII only.
- The order of the validator's context dictionary is left out. Scripts are a sequence in file order.
- The known-UDF list used to find calls (comprehensive_validation.py:131-135) is left out. Calls arrive already matched and named.
- The warehouse check opens files without a `try` (comprehensive_validation.py:371), and so do `_validate_script_dependencies` (dry_run_integration_test.py:120) and the object-creation check (dry_run_integration_test.py:185). Their exceptions are left out; the contents are inputs.
- DryRun.RunComprehensiveTest: carries on after an unreadable file, which the program does not. Step 4 re-opens every `.sql` file without a guard (dry_run_integration_test.py:185), and step 2 re-opens the ordered scripts (line 120). So a file that step 1 records as unreadable makes the real run raise before `_generate_final_report`. The Failed verdict that `DryRun.RunSucceeds` and `DryRun.FinalVerdict` give for that case is never printed by the program.
- `_validate_script_dependencies` opens each existing script. Contents of the existing scripts are looked up in a map. Its INFO records never affect success.
- `_test_udf_consistency` runs a subprocess. How it ended is an input: a return code, or the text `str(e)` of the exception a failed launch raised.
- `_test_workflow_simulation` records nothing and is omitted.
- The Snowflake session (`get_semantic_views`, `get_semantic_dimensions`, `get_semantic_metrics`, `session.sql`) is left out. It is external, so the query text is the result.
- The Streamlit UI, charts and `run_local.py` are user interface only and are left out.
- DryRun.PatternWarnings: states `|r| <= 3` rather than the exact count of matched patterns. The membership iff already fixes which warnings appear.

## Findings

| source | as written | input that shows it | evidently intended | confidence | as-written member | corrected member |
|---|---|---|---|---|---|---|
| RDF_to_Snowflake_Demo/tests/comprehensive_validation.py:451-452 | `sys.exit(error_count)` exits with the ERROR count, and a POSIX parent keeps only its low eight bits | 256 ERROR issues: exit status 0, which the dry run (dry_run_integration_test.py:143) reads as "all UDF consistency checks passed" (`DryRun.WrappedStatusHidesErrors`) | a non-zero status whenever there is an ERROR, e.g. the count clamped to 255 | not executed | Validation.ExitStatusWrapsAt256 | Validation.SaturatedExitStatus |

=== FILE: analyst.dfy ===
/** The simulated Cortex Analyst of the Streamlit chat app
    (streamlit_app/cortex_analyst_chat.py): routing a question to a semantic
    view query, the text of that `SEMANTIC_VIEW` query, and the query-builder
    form's default selections. The Snowflake session that runs the query is
    not modelled; the query text is the result. */
module Analyst {
  import opened Text

  // ---------------------------------------------------------------------------
  // Routing a question

  /** The branch of `simulate_cortex_analyst_query` a question takes. */
  datatype Intent = Revenue | TopCustomers | TopProducts | HighValue | Recent | Default

  /** The dimensions, metrics and filter a branch asks the semantic view for. */
  datatype Route = Route(dimensions: seq<string>, metrics: seq<string>, filter: Option<string>)

  /** The if-chain of `simulate_cortex_analyst_query` on the lower-cased question. */
  function Classify(question: string): Intent {
    var q := Lower(question);
    if Contains(q, "revenue") || Contains(q, "sales") then Revenue
    else if Contains(q, "customer") && Contains(q, "top") then TopCustomers
    else if Contains(q, "product") && (Contains(q, "best") || Contains(q, "top")) then TopProducts
    else if Contains(q, "high value") || Contains(q, "expensive") then HighValue
    else if Contains(q, "recent") || Contains(q, "last 30 days") then Recent
    else Default
  }

  function Plan(intent: Intent): (r: Route)
    ensures r.dimensions != [] && r.metrics != []
    ensures r.filter.Some? <==> intent == HighValue || intent == Recent
  {
    match intent
    case Revenue => Route(["PRODUCT_NAME", "CUSTOMER_NAME"], ["TOTAL_REVENUE", "ORDER_COUNT"], None)
    case TopCustomers => Route(["CUSTOMER_NAME"], ["CUSTOMER_LIFETIME_VALUE", "TOTAL_ORDERS"], None)
    case TopProducts => Route(["PRODUCT_NAME", "CATEGORY_NAME"], ["TOTAL_QUANTITY_SOLD", "ORDER_COUNT"], None)
    case HighValue => Route(["CUSTOMER_NAME", "ORDER_DATE"], ["TOTAL_REVENUE"], Some("high_value_orders"))
    case Recent => Route(["PRODUCT_NAME", "ORDER_DATE"], ["TOTAL_REVENUE", "TOTAL_QUANTITY_SOLD"], Some("recent_orders"))
    case Default => Route(["PRODUCT_NAME", "CUSTOMER_NAME"], ["TOTAL_REVENUE", "ORDER_COUNT"], None)
  }

  /** A keyword condition of the routing table. */
  datatype Test = Has(word: string) | AnyOf(left: Test, right: Test) | AllOf(left: Test, right: Test)

  predicate Holds(t: Test, q: string) {
    match t
    case Has(w) => Contains(q, w)
    case AnyOf(a, b) => Holds(a, q) || Holds(b, q)
    case AllOf(a, b) => Holds(a, q) && Holds(b, q)
  }

  /** The routing rules as data, in the order they are tried. */
  const RoutingTable: seq<(Test, Intent)> := [
    (AnyOf(Has("revenue"), Has("sales")), Revenue),
    (AllOf(Has("customer"), Has("top")), TopCustomers),
    (AllOf(Has("product"), AnyOf(Has("best"), Has("top"))), TopProducts),
    (AnyOf(Has("high value"), Has("expensive")), HighValue),
    (AnyOf(Has("recent"), Has("last 30 days")), Recent)
  ]

  /** The intent of the first rule whose test holds, or `Default` when none does. */
  function FirstMatch(table: seq<(Test, Intent)>, q: string): Intent
    decreases |table|
  {
    if table == [] then Default
    else if Holds(table[0].0, q) then table[0].1
    else FirstMatch(table[1..], q)
  }

  /** `FirstMatch` picks a rule whose test holds and no earlier rule holds. */
  lemma {:induction false} FirstMatchIsFirst(table: seq<(Test, Intent)>, q: string)
    ensures var r := FirstMatch(table, q);
      || (r == Default && forall i :: 0 <= i < |table| ==> !Holds(table[i].0, q))
      || (exists i :: 0 <= i < |table| && table[i].1 == r && Holds(table[i].0, q)
            && forall j :: 0 <= j < i ==> !Holds(table[j].0, q))
    decreases |table|
  {
    if table != [] && !Holds(table[0].0, q) {
      var tail := table[1..];
      FirstMatchIsFirst(tail, q);
      assert forall i :: 0 <= i < |tail| ==> tail[i] == table[i + 1];
      if FirstMatch(tail, q) != Default || exists i :: 0 <= i < |tail| && Holds(tail[i].0, q) {
        var i :| 0 <= i < |tail| && tail[i].1 == FirstMatch(tail, q) && Holds(tail[i].0, q)
          && forall j :: 0 <= j < i ==> !Holds(tail[j].0, q);
        assert table[i + 1] == tail[i];
        assert forall j :: 0 <= j < i + 1 ==> !Holds(table[j].0, q) by {
          forall j | 0 <= j < i + 1 ensures !Holds(table[j].0, q) {
            if j > 0 { assert table[j] == tail[j - 1]; }
          }
        }
      }
    } else if table != [] {
      assert table[0].1 == FirstMatch(table, q);
    }
  }

  lemma FirstMatchCons(head: (Test, Intent), tail: seq<(Test, Intent)>, q: string)
    ensures FirstMatch([head] + tail, q) == if Holds(head.0, q) then head.1 else FirstMatch(tail, q)
  {
    assert ([head] + tail)[1..] == tail;
  }

  /** The question is routed by the first rule of the table that its
      lower-cased text satisfies. */
  lemma ClassifyFollowsTable(question: string)
    ensures Classify(question) == FirstMatch(RoutingTable, Lower(question))
  {
    var q := Lower(question);
    var e0 := (AnyOf(Has("revenue"), Has("sales")), Revenue);
    var e1 := (AllOf(Has("customer"), Has("top")), TopCustomers);
    var e2 := (AllOf(Has("product"), AnyOf(Has("best"), Has("top"))), TopProducts);
    var e3 := (AnyOf(Has("high value"), Has("expensive")), HighValue);
    var e4 := (AnyOf(Has("recent"), Has("last 30 days")), Recent);
    assert RoutingTable == [e0] + ([e1] + ([e2] + ([e3] + ([e4] + []))));
    FirstMatchCons(e4, [], q);
    FirstMatchCons(e3, [e4] + [], q);
    FirstMatchCons(e2, [e3] + ([e4] + []), q);
    FirstMatchCons(e1, [e2] + ([e3] + ([e4] + [])), q);
    FirstMatchCons(e0, [e1] + ([e2] + ([e3] + ([e4] + []))), q);
    assert Holds(e0.0, q) == (Contains(q, "revenue") || Contains(q, "sales"));
    assert Holds(e1.0, q) == (Contains(q, "customer") && Contains(q, "top"));
    assert Holds(e2.0.right, q) == (Contains(q, "best") || Contains(q, "top"));
    assert Holds(e2.0, q) == (Contains(q, "product") && (Contains(q, "best") || Contains(q, "top")));
    assert Holds(e3.0, q) == (Contains(q, "high value") || Contains(q, "expensive"));
    assert Holds(e4.0, q) == (Contains(q, "recent") || Contains(q, "last 30 days"));
  }

  /** Routing ignores the case of ASCII letters. */
  lemma ClassifyIgnoresCase(question: string)
    ensures Classify(Upper(question)) == Classify(question)
    ensures Classify(Lower(question)) == Classify(question)
  {
    LowerIdempotent(question);
    assert Lower(Upper(question)) == Lower(question) by {
      forall i | 0 <= i < |question| ensures Lower(Upper(question))[i] == Lower(question)[i] {
        var c := question[i];
        assert Upper(question)[i] == UpperChar(c);
      }
    }
  }

  /** A question that mentions revenue or sales takes the revenue branch,
      whatever else it mentions. */
  lemma RevenueWins(question: string)
    requires Contains(Lower(question), "revenue") || Contains(Lower(question), "sales")
    ensures Classify(question) == Revenue
  {
  }

  lemma TopCustomersByRevenue()
    ensures Classify("top customers by revenue") == Revenue
  {
    var q := "top customers by revenue";
    assert Lower(q) == q;
    assert OccursAt(q, "revenue", 17);
  }

  /** The fallback asks for the same data as the revenue branch. */
  lemma DefaultIsRevenue()
    ensures Plan(Default) == Plan(Revenue)
  {
  }

  // ---------------------------------------------------------------------------
  // The query text

  /** The clauses joined into the query: DIMENSIONS before METRICS, each only
      when its comma-joined list is non-empty. */
  function QueryParts(dimensions: seq<string>, metrics: seq<string>): (r: seq<string>)
    ensures var dimList := Join(", ", dimensions);
      var metricList := Join(", ", metrics);
      && |r| == (if dimList != [] then 1 else 0) + (if metricList != [] then 1 else 0)
      && (dimList != [] ==> r[0] == "DIMENSIONS (" + dimList + ")")
      && (metricList != [] ==> r[|r| - 1] == "METRICS (" + metricList + ")")
  {
    var dimList := Join(", ", dimensions);
    var metricList := Join(", ", metrics);
    (if dimList != [] then ["DIMENSIONS (" + dimList + ")"] else [])
    + (if metricList != [] then ["METRICS (" + metricList + ")"] else [])
  }

  /** A list is left out of the query exactly when it is empty or holds a
      single empty name. */
  lemma ClausePresence(dimensions: seq<string>, metrics: seq<string>)
    ensures var r := QueryParts(dimensions, metrics);
      && (|r| == 2 <==> !(dimensions == [] || dimensions == [[]]) && !(metrics == [] || metrics == [[]]))
      && (r == [] <==> (dimensions == [] || dimensions == [[]]) && (metrics == [] || metrics == [[]]))
  {
    JoinEmpty(", ", dimensions);
    JoinEmpty(", ", metrics);
  }

  /** Python's truthiness of the optional filter string. */
  predicate HasFilter(filter: Option<string>) {
    filter.Some? && filter.value != []
  }

  function WhereClause(filter: Option<string>): (r: string)
    ensures r == [] <==> !HasFilter(filter)
  {
    if HasFilter(filter) then "WHERE " + filter.value else ""
  }

  const Indent8: string := "        "
  const Indent12: string := "            "

  /** The query string `query_semantic_view` sends, line by line. */
  function QueryLines(view: string, dimensions: seq<string>, metrics: seq<string>, filter: Option<string>, limit: int): seq<string> {
    [ "",
      Indent8 + "SELECT * FROM SEMANTIC_VIEW(",
      Indent12 + view,
      Indent12 + Join(" ", QueryParts(dimensions, metrics)),
      Indent12 + WhereClause(filter),
      Indent8 + ")",
      Indent8 + "LIMIT " + IntToString(limit),
      Indent8 ]
  }

  function BuildQuery(view: string, dimensions: seq<string>, metrics: seq<string>, filter: Option<string>, limit: int): string {
    Join("\n", QueryLines(view, dimensions, metrics, filter, limit))
  }

  predicate SingleLine(s: string) {
    '\n' !in s
  }

  predicate AllSingleLine(xs: seq<string>) {
    forall k :: 0 <= k < |xs| ==> SingleLine(xs[k])
  }

  lemma DecimalSingleLine(n: nat)
    ensures SingleLine(NatToDecimal(n))
  {
    var d := NatToDecimal(n);
    forall k | 0 <= k < |d| ensures d[k] != '\n' {
      assert IsDigit(d[k]);
    }
  }

  lemma {:induction false} PartsSingleLine(dimensions: seq<string>, metrics: seq<string>)
    requires AllSingleLine(dimensions) && AllSingleLine(metrics)
    ensures AllSingleLine(QueryParts(dimensions, metrics))
    ensures SingleLine(Join(" ", QueryParts(dimensions, metrics)))
  {
    JoinAvoids(", ", dimensions, '\n');
    JoinAvoids(", ", metrics, '\n');
    var parts := QueryParts(dimensions, metrics);
    JoinAvoids(" ", parts, '\n');
  }

  /** `line` is the LIMIT line of `limit`: a fixed prefix, then (for a
      non-negative limit) digits that read back as the limit. */
  predicate LimitReads(line: string, limit: int) {
    && |line| > 14 && line[..14] == Indent8 + "LIMIT "
    && (limit >= 0 ==> (forall k :: 14 <= k < |line| ==> IsDigit(line[k]))
                       && DecimalValue(line[14..]) == limit)
  }

  /** The LIMIT line: the limit in decimal after a fixed prefix. */
  lemma LimitLine(limit: int)
    ensures var line := Indent8 + "LIMIT " + IntToString(limit);
      SingleLine(line) && LimitReads(line, limit)
  {
    var line := Indent8 + "LIMIT " + IntToString(limit);
    var digits := NatToDecimal(if limit < 0 then -limit else limit);
    DecimalSingleLine(if limit < 0 then -limit else limit);
    assert SingleLine(IntToString(limit));
    if limit >= 0 {
      assert line[14..] == digits;
      DecimalRoundTrip(limit);
    }
  }

  lemma ConcatSingleLine(a: string, b: string)
    requires SingleLine(a) && SingleLine(b)
    ensures SingleLine(a + b)
  {
  }

  lemma QueryLinesSingle(view: string, dimensions: seq<string>, metrics: seq<string>, filter: Option<string>, limit: int)
    requires SingleLine(view) && AllSingleLine(dimensions) && AllSingleLine(metrics)
    requires filter.Some? ==> SingleLine(filter.value)
    ensures SplitOn(BuildQuery(view, dimensions, metrics, filter, limit), '\n') == QueryLines(view, dimensions, metrics, filter, limit)
  {
    QueryLinesEach(view, dimensions, metrics, filter, limit);
    SplitOnJoin('\n', QueryLines(view, dimensions, metrics, filter, limit));
  }

  lemma QueryLinesEach(view: string, dimensions: seq<string>, metrics: seq<string>, filter: Option<string>, limit: int)
    requires SingleLine(view) && AllSingleLine(dimensions) && AllSingleLine(metrics)
    requires filter.Some? ==> SingleLine(filter.value)
    ensures AllSingleLine(QueryLines(view, dimensions, metrics, filter, limit))
  {
    var clauses := Join(" ", QueryParts(dimensions, metrics));
    var w := WhereClause(filter);
    PartsSingleLine(dimensions, metrics);
    LimitLine(limit);
    assert SingleLine(w);
    FixedLinesSingle();
    ConcatSingleLine(Indent12, view);
    ConcatSingleLine(Indent12, clauses);
    ConcatSingleLine(Indent12, w);
    EightSingleLines("", Indent8 + "SELECT * FROM SEMANTIC_VIEW(", Indent12 + view, Indent12 + clauses,
      Indent12 + w, Indent8 + ")", Indent8 + "LIMIT " + IntToString(limit), Indent8);
  }

  lemma FixedLinesSingle()
    ensures SingleLine(Indent8) && SingleLine(Indent12)
    ensures SingleLine(Indent8 + "SELECT * FROM SEMANTIC_VIEW(") && SingleLine(Indent8 + ")")
  {
    assert SingleLine("SELECT * FROM SEMANTIC_VIEW(");
    ConcatSingleLine(Indent8, "SELECT * FROM SEMANTIC_VIEW(");
    ConcatSingleLine(Indent8, ")");
  }

  lemma EightSingleLines(l0: string, l1: string, l2: string, l3: string, l4: string, l5: string, l6: string, l7: string)
    requires SingleLine(l0) && SingleLine(l1) && SingleLine(l2) && SingleLine(l3)
    requires SingleLine(l4) && SingleLine(l5) && SingleLine(l6) && SingleLine(l7)
    ensures AllSingleLine([l0, l1, l2, l3, l4, l5, l6, l7])
  {
  }

  /** When no name, view or filter contains a line break, the query's lines can
      be read back: the clause line holds the clauses, the WHERE line is blank
      exactly when there is no filter and otherwise holds `WHERE` and the
      filter, and the LIMIT line carries the limit in decimal. */
  lemma QueryLayout(view: string, dimensions: seq<string>, metrics: seq<string>, filter: Option<string>, limit: int)
    requires SingleLine(view) && AllSingleLine(dimensions) && AllSingleLine(metrics)
    requires filter.Some? ==> SingleLine(filter.value)
    ensures var lines := SplitOn(BuildQuery(view, dimensions, metrics, filter, limit), '\n');
      && |lines| == 8
      && lines[1] == Indent8 + "SELECT * FROM SEMANTIC_VIEW("
      && lines[2] == Indent12 + view
      && lines[3] == Indent12 + Join(" ", QueryParts(dimensions, metrics))
      && (lines[4] == Indent12 <==> !HasFilter(filter))
      && (HasFilter(filter) ==> lines[4] == Indent12 + "WHERE " + filter.value)
      && |lines[6]| > 14 && lines[6][..14] == Indent8 + "LIMIT "
      && (limit >= 0 ==> (forall k :: 14 <= k < |lines[6]| ==> IsDigit(lines[6][k]))
                         && DecimalValue(lines[6][14..]) == limit)
  {
    QueryLinesSingle(view, dimensions, metrics, filter, limit);
    QueryLinesLayout(view, dimensions, metrics, filter, limit);
  }

  /** The same facts about the lines before they are joined. */
  lemma QueryLinesLayout(view: string, dimensions: seq<string>, metrics: seq<string>, filter: Option<string>, limit: int)
    ensures var lines := QueryLines(view, dimensions, metrics, filter, limit);
      && |lines| == 8
      && lines[1] == Indent8 + "SELECT * FROM SEMANTIC_VIEW("
      && lines[2] == Indent12 + view
      && lines[3] == Indent12 + Join(" ", QueryParts(dimensions, metrics))
      && (lines[4] == Indent12 <==> !HasFilter(filter))
      && (HasFilter(filter) ==> lines[4] == Indent12 + "WHERE " + filter.value)
      && LimitReads(lines[6], limit)
  {
    WhereLineAt(view, dimensions, metrics, filter, limit);
    LimitLineAt(view, dimensions, metrics, filter, limit);
  }

  lemma WhereLineAt(view: string, dimensions: seq<string>, metrics: seq<string>, filter: Option<string>, limit: int)
    ensures var lines := QueryLines(view, dimensions, metrics, filter, limit);
      && (lines[4] == Indent12 <==> !HasFilter(filter))
      && (HasFilter(filter) ==> lines[4] == Indent12 + "WHERE " + filter.value)
  {
    WhereLine(filter);
  }

  lemma LimitLineAt(view: string, dimensions: seq<string>, metrics: seq<string>, filter: Option<string>, limit: int)
    ensures LimitReads(QueryLines(view, dimensions, metrics, filter, limit)[6], limit)
  {
    LimitLine(limit);
  }

  /** The WHERE line is bare indentation exactly when there is no filter. */
  lemma WhereLine(filter: Option<string>)
    ensures Indent12 + WhereClause(filter) == Indent12 <==> !HasFilter(filter)
  {
    var w := WhereClause(filter);
    if Indent12 + w == Indent12 {
      assert |w| == 0;
    }
  }

  /** `simulate_cortex_analyst_query`: the routed query with the default limit of 10. */
  function SimulateQuery(question: string, view: string): string {
    var p := Plan(Classify(question));
    BuildQuery(view, p.dimensions, p.metrics, p.filter, 10)
  }

  lemma PlanLists(intent: Intent)
    ensures var p := Plan(intent);
      && AllSingleLine(p.dimensions) && AllSingleLine(p.metrics)
      && p.dimensions != [] && p.dimensions != [[]] && p.metrics != [] && p.metrics != [[]]
      && (p.filter.Some? ==> SingleLine(p.filter.value) && p.filter.value != [])
  {
    match intent
    case Revenue => TwoNames("PRODUCT_NAME", "CUSTOMER_NAME"); TwoNames("TOTAL_REVENUE", "ORDER_COUNT");
    case TopCustomers => OneName("CUSTOMER_NAME"); TwoNames("CUSTOMER_LIFETIME_VALUE", "TOTAL_ORDERS");
    case TopProducts => TwoNames("PRODUCT_NAME", "CATEGORY_NAME"); TwoNames("TOTAL_QUANTITY_SOLD", "ORDER_COUNT");
    case HighValue => TwoNames("CUSTOMER_NAME", "ORDER_DATE"); OneName("TOTAL_REVENUE");
      assert SingleLine("high_value_orders");
    case Recent => TwoNames("PRODUCT_NAME", "ORDER_DATE"); TwoNames("TOTAL_REVENUE", "TOTAL_QUANTITY_SOLD");
      assert SingleLine("recent_orders");
    case Default => TwoNames("PRODUCT_NAME", "CUSTOMER_NAME"); TwoNames("TOTAL_REVENUE", "ORDER_COUNT");
  }

  lemma OneName(a: string)
    requires SingleLine(a)
    ensures AllSingleLine([a])
  {
  }

  lemma TwoNames(a: string, b: string)
    requires SingleLine(a) && SingleLine(b)
    ensures AllSingleLine([a, b])
  {
  }

  lemma TenInDecimal()
    ensures IntToString(10) == "10"
  {
    assert NatToDecimal(1) == "1";
  }

  /** Every routed query asks for both dimensions and metrics, limits to 10
      rows, and has a WHERE clause only on the high-value and recent branches,
      naming the `high_value_orders` or `recent_orders` filter. */
  lemma SimulatedQueryShape(question: string, view: string)
    requires SingleLine(view)
    ensures var lines := SplitOn(SimulateQuery(question, view), '\n');
      && |lines| == 8
      && |QueryParts(Plan(Classify(question)).dimensions, Plan(Classify(question)).metrics)| == 2
      && (lines[4] != Indent12 <==> Classify(question) == HighValue || Classify(question) == Recent)
      && (Classify(question) == HighValue ==> lines[4] == Indent12 + "WHERE high_value_orders")
      && (Classify(question) == Recent ==> lines[4] == Indent12 + "WHERE recent_orders")
      && lines[6] == Indent8 + "LIMIT 10"
  {
    RoutedShape(Classify(question), view);
    RoutedWhere(Classify(question), view);
  }

  lemma RoutedShape(intent: Intent, view: string)
    requires SingleLine(view)
    ensures var p := Plan(intent);
      var lines := SplitOn(BuildQuery(view, p.dimensions, p.metrics, p.filter, 10), '\n');
      && |lines| == 8
      && |QueryParts(p.dimensions, p.metrics)| == 2
      && (lines[4] != Indent12 <==> intent == HighValue || intent == Recent)
      && lines[6] == Indent8 + "LIMIT 10"
  {
    var p := Plan(intent);
    PlanLists(intent);
    QueryLayout(view, p.dimensions, p.metrics, p.filter, 10);
    ClausePresence(p.dimensions, p.metrics);
    TenInDecimal();
    QueryLinesSingle(view, p.dimensions, p.metrics, p.filter, 10);
  }

  lemma RoutedWhere(intent: Intent, view: string)
    requires SingleLine(view)
    ensures var p := Plan(intent);
      var lines := SplitOn(BuildQuery(view, p.dimensions, p.metrics, p.filter, 10), '\n');
      && |lines| == 8
      && (intent == HighValue ==> lines[4] == Indent12 + "WHERE high_value_orders")
      && (intent == Recent ==> lines[4] == Indent12 + "WHERE recent_orders")
  {
    PlanLists(intent);
    var p := Plan(intent);
    if intent == HighValue {
      FilteredWhereLine(view, p.dimensions, p.metrics, "high_value_orders");
    } else if intent == Recent {
      FilteredWhereLine(view, p.dimensions, p.metrics, "recent_orders");
    } else {
      QueryLayout(view, p.dimensions, p.metrics, p.filter, 10);
    }
  }

  /** The WHERE line of a filtered query with the routed limit. */
  lemma FilteredWhereLine(view: string, dimensions: seq<string>, metrics: seq<string>, name: string)
    requires SingleLine(view) && AllSingleLine(dimensions) && AllSingleLine(metrics)
    requires SingleLine(name) && name != []
    ensures var lines := SplitOn(BuildQuery(view, dimensions, metrics, Some(name), 10), '\n');
      |lines| == 8 && lines[4] == Indent12 + ("WHERE " + name)
  {
    QueryLayout(view, dimensions, metrics, Some(name), 10);
  }

  // ---------------------------------------------------------------------------
  // The query-builder form

  /** The form's default selection: `xs[:2] if len(xs) >= 2 else xs`, the
      first two entries or all of fewer. */
  function DefaultSelection(xs: seq<string>): (r: seq<string>)
    ensures |r| == (if |xs| >= 2 then 2 else |xs|)
    ensures r == xs[..|r|]
  {
    if |xs| >= 2 then xs[..2] else xs
  }

  lemma DefaultSelectionStable(xs: seq<string>)
    ensures DefaultSelection(DefaultSelection(xs)) == DefaultSelection(xs)
    ensures |xs| <= 2 ==> DefaultSelection(xs) == xs
  {
  }

  /** The query the form submits, or `None` when nothing is selected. */
  function FormQuery(view: string, dimensions: seq<string>, metrics: seq<string>, limit: int): (r: Option<string>)
    ensures r.Some? <==> dimensions != [] || metrics != []
  {
    if dimensions != [] || metrics != [] then Some(BuildQuery(view, dimensions, metrics, None, limit)) else None
  }

  /** The form's query never has a WHERE clause. */
  lemma FormQueryUnfiltered(view: string, dimensions: seq<string>, metrics: seq<string>, limit: int)
    requires SingleLine(view) && AllSingleLine(dimensions) && AllSingleLine(metrics)
    requires dimensions != [] || metrics != []
    ensures var lines := SplitOn(FormQuery(view, dimensions, metrics, limit).value, '\n');
      |lines| == 8 && lines[4] == Indent12
  {
    QueryLayout(view, dimensions, metrics, None, limit);
  }

  /** With the default selection, the form submits a query whenever the view
      offers any dimension or metric. */
  lemma DefaultFormSubmits(view: string, dimensions: seq<string>, metrics: seq<string>, limit: int)
    requires dimensions != [] || metrics != []
    ensures FormQuery(view, DefaultSelection(dimensions), DefaultSelection(metrics), limit).Some?
  {
  }
}

=== FILE: dry_run.dfy ===
/** The dry-run integration tester (`DryRunIntegrationTest` in
    tests/dry_run_integration_test.py): a list of issues and a success flag,
    fed by checks over the scripts, a final verdict and an exit code.

    File globbing, reading and the subprocess that runs the validator are not
    modelled: what they produce (which scripts exist and their text, which
    issue patterns a script matches, which object names the `CREATE`
    statements name, the validator's return code) are the inputs. */
module DryRun {
  import opened Text
  import opened Severities
  import Validation

  /** One `{"severity": ..., "description": ...}` record of `self.issues`. */
  datatype Issue = Issue(severity: Severity, description: string)

  datatype Tester = Tester(issues: seq<Issue>, success: bool)

  predicate HasError(issues: seq<Issue>) {
    exists i :: 0 <= i < |issues| && issues[i].severity == Error
  }

  /** The invariant the tester keeps: it has succeeded exactly while no ERROR
      has been recorded. */
  predicate Valid(t: Tester) {
    t.success <==> !HasError(t.issues)
  }

  /** `u` is `t` with more issues recorded after the old ones. */
  predicate Extends(t: Tester, u: Tester) {
    |t.issues| <= |u.issues| && u.issues[..|t.issues|] == t.issues && (u.success ==> t.success)
  }

  /** `__init__`: no issues, success. */
  function NewTester(): (t: Tester)
    ensures Valid(t) && t.issues == []
  {
    Tester([], true)
  }

  /** `_add_issue`: append the record; an ERROR clears the success flag for good. */
  function AddIssue(t: Tester, severity: Severity, description: string): (u: Tester)
    ensures |u.issues| == |t.issues| + 1 && u.issues[..|t.issues|] == t.issues
    ensures u.issues[|t.issues|] == Issue(severity, description)
    ensures !u.success <==> !t.success || severity == Error
    ensures Valid(t) ==> Valid(u)
    ensures Extends(t, u)
  {
    var u := Tester(t.issues + [Issue(severity, description)], t.success && severity != Error);
    assert u.issues[..|t.issues|] == t.issues;
    HasErrorSnoc(t.issues, Issue(severity, description));
    u
  }

  lemma HasErrorSnoc(issues: seq<Issue>, x: Issue)
    ensures HasError(issues + [x]) <==> HasError(issues) || x.severity == Error
  {
    if HasError(issues) {
      var i :| 0 <= i < |issues| && issues[i].severity == Error;
      assert (issues + [x])[i] == issues[i];
    }
    if x.severity == Error {
      assert (issues + [x])[|issues|] == x;
    }
    if HasError(issues + [x]) {
      var i :| 0 <= i < |issues + [x]| && (issues + [x])[i].severity == Error;
      if i < |issues| {
        assert issues[i] == (issues + [x])[i];
      }
    }
  }

  /** `_add_issue` for each record in turn. */
  function AddAll(t: Tester, records: seq<Issue>): Tester
    decreases |records|
  {
    if records == [] then t
    else
      var last := records[|records| - 1];
      AddIssue(AddAll(t, records[..|records| - 1]), last.severity, last.description)
  }

  /** Adding records appends them in order, keeps the invariant, and keeps
      the success flag exactly when none of them is an ERROR. */
  lemma {:induction false} AddAllEffect(t: Tester, records: seq<Issue>)
    ensures AddAll(t, records).issues == t.issues + records
    ensures AddAll(t, records).success <==> t.success && !HasError(records)
    ensures Valid(t) ==> Valid(AddAll(t, records))
    ensures Extends(t, AddAll(t, records))
    decreases |records|
  {
    if records != [] {
      var init := records[..|records| - 1];
      var last := records[|records| - 1];
      AddAllEffect(t, init);
      assert t.issues + init + [last] == t.issues + records by {
        assert init + [last] == records;
      }
      HasErrorSnoc(init, last);
      assert init + [last] == records;
      var u := AddAll(t, init);
      assert (t.issues + records)[..|t.issues|] == t.issues;
    }
  }

  predicate AllWarnings(records: seq<Issue>) {
    forall i :: 0 <= i < |records| ==> records[i].severity == Warning
  }

  lemma WarningsAreNoErrors(records: seq<Issue>)
    requires AllWarnings(records)
    ensures !HasError(records)
  {
  }

  // ---------------------------------------------------------------------------
  // SQL syntax

  /** The patterns of `_check_basic_sql_syntax` that record an issue. */
  datatype IssueCheck = UuidInValues | IncorrectComment | UnresolvedVariables

  function CheckDescription(c: IssueCheck): string {
    match c
    case UuidInValues => "UUID_STRING in VALUES clause"
    case IncorrectComment => "Incorrect COMMENT syntax"
    case UnresolvedVariables => "Unresolved variables"
  }

  /** A script as `_test_sql_syntax` meets it: unreadable, with the reason,
      or read, with the issue patterns its text matches. */
  datatype SyntaxInput = Unreadable(path: string, reason: string) | Read(name: string, matched: set<IssueCheck>)

  function PatternWarning(name: string, c: IssueCheck): Issue {
    Issue(Warning, name + ": " + CheckDescription(c))
  }

  function WarnIf(name: string, matched: set<IssueCheck>, c: IssueCheck): seq<Issue> {
    if c in matched then [PatternWarning(name, c)] else []
  }

  /** The WARNINGs `_check_basic_sql_syntax` records for one script, in
      pattern order: one for each issue pattern its text matches. */
  function PatternWarnings(name: string, matched: set<IssueCheck>): (r: seq<Issue>)
    ensures AllWarnings(r)
    ensures |r| <= 3
    ensures forall c :: c in matched <==> PatternWarning(name, c) in r
  {
    var a := WarnIf(name, matched, UuidInValues);
    var b := WarnIf(name, matched, IncorrectComment);
    var c := WarnIf(name, matched, UnresolvedVariables);
    forall x ensures x in matched <==> PatternWarning(name, x) in a + b + c {
      WarnIfMember(name, matched, UuidInValues, x);
      WarnIfMember(name, matched, IncorrectComment, x);
      WarnIfMember(name, matched, UnresolvedVariables, x);
      assert x.UuidInValues? || x.IncorrectComment? || x.UnresolvedVariables?;
    }
    a + b + c
  }

  lemma WarnIfMember(name: string, matched: set<IssueCheck>, c: IssueCheck, x: IssueCheck)
    ensures PatternWarning(name, x) in WarnIf(name, matched, c) <==> x == c && c in matched
  {
    DescriptionsDiffer(name);
  }

  lemma DescriptionsDiffer(name: string)
    ensures forall c, d :: name + ": " + CheckDescription(c) == name + ": " + CheckDescription(d) ==> c == d
  {
    forall c, d | name + ": " + CheckDescription(c) == name + ": " + CheckDescription(d) ensures c == d {
      var p := name + ": ";
      assert CheckDescription(c) == (p + CheckDescription(c))[|p|..];
      assert CheckDescription(d) == (p + CheckDescription(d))[|p|..];
      assert CheckDescription(c)[0] == CheckDescription(d)[0];
      assert |CheckDescription(c)| == |CheckDescription(d)|;
    }
  }

  function SyntaxRecords(input: SyntaxInput): seq<Issue> {
    match input
    case Unreadable(path, reason) => [Issue(Error, "Failed to read " + path + ": " + reason)]
    case Read(name, matched) => PatternWarnings(name, matched)
  }

  /** Readable scripts only ever add WARNINGs; an unreadable one adds an ERROR. */
  lemma SyntaxRecordsSeverity(input: SyntaxInput)
    ensures input.Read? ==> AllWarnings(SyntaxRecords(input))
    ensures HasError(SyntaxRecords(input)) <==> input.Unreadable?
  {
    if input.Unreadable? {
      assert SyntaxRecords(input)[0].severity == Error;
    }
  }

  /** The records for each script of `inputs` in turn. */
  function SyntaxRecordsFor(inputs: seq<SyntaxInput>): (r: seq<Issue>)
    ensures HasError(r) <==> exists i :: 0 <= i < |inputs| && inputs[i].Unreadable?
    decreases |inputs|
  {
    if inputs == [] then []
    else
      var init := inputs[..|inputs| - 1];
      var r0 := SyntaxRecordsFor(init);
      var r1 := SyntaxRecords(inputs[|inputs| - 1]);
      SyntaxRecordsSeverity(inputs[|inputs| - 1]);
      SnocErrors(init, inputs, r0, r1);
      r0 + r1
  }

  lemma SnocErrors(init: seq<SyntaxInput>, inputs: seq<SyntaxInput>, r0: seq<Issue>, r1: seq<Issue>)
    requires |inputs| > 0 && init == inputs[..|inputs| - 1]
    requires HasError(r0) <==> exists i :: 0 <= i < |init| && init[i].Unreadable?
    requires HasError(r1) <==> inputs[|inputs| - 1].Unreadable?
    ensures HasError(r0 + r1) <==> exists i :: 0 <= i < |inputs| && inputs[i].Unreadable?
  {
    HasErrorAppend(r0, r1);
    assert forall i :: 0 <= i < |init| ==> init[i] == inputs[i];
  }

  /** `_test_sql_syntax` over the scripts in glob order: it fails exactly
      when some script cannot be read. */
  function TestSqlSyntax(t: Tester, inputs: seq<SyntaxInput>): (u: Tester)
    ensures Valid(t) ==> Valid(u)
    ensures Extends(t, u)
    ensures u.success <==> t.success && forall i :: 0 <= i < |inputs| ==> inputs[i].Read?
  {
    var records := SyntaxRecordsFor(inputs);
    AddAllEffect(t, records);
    AddAll(t, records)
  }

  lemma HasErrorAppend(a: seq<Issue>, b: seq<Issue>)
    ensures HasError(a + b) <==> HasError(a) || HasError(b)
  {
    if HasError(a) {
      var i :| 0 <= i < |a| && a[i].severity == Error;
      assert (a + b)[i] == a[i];
    }
    if HasError(b) {
      var i :| 0 <= i < |b| && b[i].severity == Error;
      assert (a + b)[|a| + i] == b[i];
    }
    if HasError(a + b) {
      var i :| 0 <= i < |a + b| && (a + b)[i].severity == Error;
      if i < |a| {
        assert a[i] == (a + b)[i];
      } else {
        assert b[i - |a|] == (a + b)[i];
      }
    }
  }

  // ---------------------------------------------------------------------------
  // Execution order

  /** `script_order` of `_test_execution_order`. */
  const ScriptOrder: seq<string> := [
    "sql/01_setup_environment.sql",
    "python_udfs/rdf_parser_udf.sql",
    "python_udfs/semantic_view_generator_udf.sql",
    "python_udfs/rdf_data_loader_udf.sql",
    "sql/02_run_conversion_demo.sql",
    "sql/03_create_semantic_views_demo.sql"
  ]

  const RequiredContexts: seq<string> := ["USE DATABASE", "USE SCHEMA"]

  /** `Path.name`: the part of `path` after its last `/`. */
  function BaseName(path: string): (r: string)
    ensures '/' !in r
    ensures |r| <= |path| && r == path[|path| - |r|..]
    ensures |r| == |path| || path[|path| - |r| - 1] == '/'
    decreases |path|
  {
    if path == [] || path[|path| - 1] == '/' then []
    else BaseName(path[..|path| - 1]) + [path[|path| - 1]]
  }

  /** The INFO record for a UDF script that does not set `ctx`. */
  function DependencyNote(fullPath: string, ctx: string): Issue {
    Issue(Info, BaseName(fullPath) + ": Missing " + ctx + " (should be set)")
  }

  function NoteIfMissing(fullPath: string, content: string, ctx: string): seq<Issue> {
    if !Contains(Upper(content), ctx) && Contains(fullPath, "python_udfs") then [DependencyNote(fullPath, ctx)] else []
  }

  /** `_validate_script_dependencies`: for a script under `python_udfs`, an
      INFO naming the file for each required context its upper-cased text
      lacks, and nothing else. */
  function DependencyRecords(fullPath: string, content: string): (r: seq<Issue>)
    ensures |r| <= |RequiredContexts|
    ensures forall i :: 0 <= i < |r| ==> r[i].severity == Info
    ensures forall i :: 0 <= i < |r| ==>
      (r[i] == DependencyNote(fullPath, RequiredContexts[0]) || r[i] == DependencyNote(fullPath, RequiredContexts[1]))
    ensures forall ctx :: ctx in RequiredContexts ==>
      (DependencyNote(fullPath, ctx) in r <==> Contains(fullPath, "python_udfs") && !Contains(Upper(content), ctx))
    ensures !Contains(fullPath, "python_udfs") ==> r == []
  {
    var a := NoteIfMissing(fullPath, content, RequiredContexts[0]);
    var b := NoteIfMissing(fullPath, content, RequiredContexts[1]);
    NotesDiffer(fullPath);
    var r := a + b;
    assert forall i :: 0 <= i < |a| ==> r[i] == a[i];
    assert forall i :: 0 <= i < |b| ==> r[|a| + i] == b[i];
    r
  }

  /** The two notes differ: the context names have different lengths. */
  lemma NotesDiffer(fullPath: string)
    ensures DependencyNote(fullPath, RequiredContexts[0]) != DependencyNote(fullPath, RequiredContexts[1])
  {
    var base := BaseName(fullPath);
    assert |base + ": Missing " + RequiredContexts[0] + " (should be set)"|
      != |base + ": Missing " + RequiredContexts[1] + " (should be set)"|;
  }

  /** The records `_test_execution_order` adds for one script of the order:
      an ERROR when it is missing, the dependency INFOs when it exists. */
  function OrderRecords(root: string, existing: map<string, string>, path: string): (r: seq<Issue>)
    ensures HasError(r) <==> path !in existing
  {
    if path in existing then
      var r := DependencyRecords(root + "/" + path, existing[path]);
      assert !HasError(r);
      r
    else
      var r := [Issue(Error, "Missing required script: " + path)];
      assert r[0].severity == Error;
      r
  }

  /** The records for each path of `paths` in turn. */
  function OrderRecordsFor(root: string, existing: map<string, string>, paths: seq<string>): (r: seq<Issue>)
    ensures HasError(r) <==> exists k :: 0 <= k < |paths| && paths[k] !in existing
    decreases |paths|
  {
    if paths == [] then []
    else
      var init := paths[..|paths| - 1];
      var r0 := OrderRecordsFor(root, existing, init);
      var r1 := OrderRecords(root, existing, paths[|paths| - 1]);
      OrderSnoc(existing, init, paths, r0, r1);
      r0 + r1
  }

  lemma OrderSnoc(existing: map<string, string>, init: seq<string>, paths: seq<string>, r0: seq<Issue>, r1: seq<Issue>)
    requires |paths| > 0 && init == paths[..|paths| - 1]
    requires HasError(r0) <==> exists k :: 0 <= k < |init| && init[k] !in existing
    requires HasError(r1) <==> paths[|paths| - 1] !in existing
    ensures HasError(r0 + r1) <==> exists k :: 0 <= k < |paths| && paths[k] !in existing
  {
    HasErrorAppend(r0, r1);
    assert forall k :: 0 <= k < |init| ==> init[k] == paths[k];
  }

  /** `_test_execution_order`, given the scripts that exist (relative path to
      text): it fails exactly when a script of the order is missing. */
  function TestExecutionOrder(t: Tester, root: string, existing: map<string, string>): (u: Tester)
    ensures Valid(t) ==> Valid(u)
    ensures Extends(t, u)
    ensures u.success <==> t.success && forall k :: 0 <= k < |ScriptOrder| ==> ScriptOrder[k] in existing
  {
    var records := OrderRecordsFor(root, existing, ScriptOrder);
    AddAllEffect(t, records);
    AddAll(t, records)
  }

  // ---------------------------------------------------------------------------
  // UDF consistency

  /** How the validator subprocess ended: with a return code, or with an
      exception whose text is `reason`. */
  datatype ValidatorRun = Exited(code: int) | Raised(reason: string)

  /** `_test_udf_consistency`: a non-zero return code is an ERROR, an
      exception only a WARNING that carries its text. */
  function TestUdfConsistency(t: Tester, run: ValidatorRun): (u: Tester)
    ensures Valid(t) ==> Valid(u)
    ensures Extends(t, u)
    ensures u.success <==> t.success && !(run.Exited? && run.code != 0)
    ensures run == Exited(0) ==> u == t
    ensures run.Exited? && run.code != 0 ==>
      u.issues == t.issues + [Issue(Error, "UDF consistency validation failed")]
    ensures run.Raised? ==> u.issues == t.issues + [Issue(Warning, "Could not run UDF validation: " + run.reason)]
  {
    match run
    case Raised(reason) => AddIssue(t, Warning, "Could not run UDF validation: " + reason)
    case Exited(code) =>
      if code == 0 then t else AddIssue(t, Error, "UDF consistency validation failed")
  }

  /** As written, the validator's exit status wraps at 256, so a run with 256
      ERRORs passes the dry run's consistency step. */
  lemma WrappedStatusHidesErrors(t: Tester)
    ensures var issues := Validation.ErrorIssues(256);
      Validation.ErrorCount(issues) > 0
      && TestUdfConsistency(t, Exited(Validation.ProcessExitStatus(issues))) == t
  {
    Validation.ExitStatusWrapsAt256();
  }

  /** With the saturated status the consistency step fails exactly when the
      validator found an ERROR. */
  lemma SaturatedStatusReportsErrors(t: Tester, issues: seq<Validation.ValidationIssue>)
    ensures TestUdfConsistency(t, Exited(Validation.SaturatedExitStatus(issues))).success <==>
      t.success && Validation.ErrorCount(issues) == 0
  {
  }

  // ---------------------------------------------------------------------------
  // Data flow

  const RequiredTables: seq<string> := [
    "RDF_SCHEMAS", "CONVERSION_RESULTS", "PRODUCT", "CATEGORY",
    "CUSTOMER", "ORDER_", "SUPPLIER", "ORDERITEM"
  ]

  const RequiredViews: seq<string> := [
    "SV_PRODUCT", "SV_CATEGORY", "SV_CUSTOMER", "SV_ORDER",
    "SV_SUPPLIER", "SV_ORDERITEM", "SV_PRODUCT_METRICS",
    "SV_ORDER_METRICS", "SV_CUSTOMER_METRICS"
  ]

  /** `created_objects`: the upper-cased names the `CREATE` statements name. */
  function CreatedObjects(matches: seq<string>): (r: set<string>)
    ensures forall n :: n in r <==> exists i :: 0 <= i < |matches| && Upper(matches[i]) == n
  {
    set i | 0 <= i < |matches| :: Upper(matches[i])
  }

  /** The required names the scripts do not create, compared case-insensitively. */
  function Missing(names: seq<string>, created: set<string>): (r: seq<string>)
    ensures forall n :: n in r <==> n in names && Upper(n) !in created
    ensures |r| <= |names|
    decreases |names|
  {
    if names == [] then []
    else
      var init := names[..|names| - 1];
      var n := names[|names| - 1];
      var r := Missing(init, created) + (if Upper(n) !in created then [n] else []);
      assert forall m :: m in names <==> m in init || m == n;
      r
  }

  /** The WARNING recorded for a required object the scripts do not create. */
  function ObjectWarning(objectType: string, n: string): Issue {
    Issue(Warning, "Required " + objectType + " " + n + " not found in scripts")
  }

  /** `_check_object_creation`: one WARNING per required name not created,
      and nothing else. */
  function CheckObjectCreation(t: Tester, names: seq<string>, objectType: string, matches: seq<string>): (u: Tester)
    ensures Valid(t) ==> Valid(u)
    ensures Extends(t, u)
    ensures u.success == t.success
    ensures AllWarnings(u.issues[|t.issues|..])
    ensures |u.issues| == |t.issues| + |Missing(names, CreatedObjects(matches))|
    ensures forall n :: n in names ==>
      (ObjectWarning(objectType, n) in u.issues[|t.issues|..] <==> Upper(n) !in CreatedObjects(matches))
    ensures forall w :: w in u.issues[|t.issues|..] ==>
      exists n :: n in names && Upper(n) !in CreatedObjects(matches) && w == ObjectWarning(objectType, n)
  {
    var missing := Missing(names, CreatedObjects(matches));
    var records := seq(|missing|, i requires 0 <= i < |missing| => ObjectWarning(objectType, missing[i]));
    AddAllEffect(t, records);
    var u := AddAll(t, records);
    assert u.issues[|t.issues|..] == records;
    ObjectRecords(names, objectType, CreatedObjects(matches), missing, records);
    u
  }

  /** The warnings for the missing names: one for a required name exactly
      when it is missing, and each for some missing required name. */
  lemma ObjectRecords(names: seq<string>, objectType: string, created: set<string>, missing: seq<string>, records: seq<Issue>)
    requires forall n :: n in missing <==> n in names && Upper(n) !in created
    requires |records| == |missing|
    requires forall i :: 0 <= i < |records| ==> records[i] == ObjectWarning(objectType, missing[i])
    ensures forall n :: n in names ==> (ObjectWarning(objectType, n) in records <==> Upper(n) !in created)
    ensures forall w :: w in records ==>
      exists n :: n in names && Upper(n) !in created && w == ObjectWarning(objectType, n)
  {
    forall n | n in names
      ensures ObjectWarning(objectType, n) in records <==> Upper(n) !in created
    {
      if Upper(n) !in created {
        var i :| 0 <= i < |missing| && missing[i] == n;
        assert records[i] == ObjectWarning(objectType, n);
      }
      if ObjectWarning(objectType, n) in records {
        var i :| 0 <= i < |records| && records[i] == ObjectWarning(objectType, n);
        MessageNames(objectType, n, missing[i]);
      }
    }
    forall w | w in records
      ensures exists n :: n in names && Upper(n) !in created && w == ObjectWarning(objectType, n)
    {
      var i :| 0 <= i < |records| && records[i] == w;
      var n := missing[i];
      assert n in missing;
      assert n in names && Upper(n) !in created && w == ObjectWarning(objectType, n);
    }
  }

  lemma MessageNames(objectType: string, n: string, m: string)
    requires "Required " + objectType + " " + n + " not found in scripts" == "Required " + objectType + " " + m + " not found in scripts"
    ensures n == m
  {
    var p := "Required " + objectType + " ";
    var s := " not found in scripts";
    var a := p + n + s;
    var b := p + m + s;
    assert |n| == |m|;
    assert n == a[|p|..|p| + |n|];
    assert m == b[|p|..|p| + |m|];
  }

  /** `_test_data_flow`: the required tables, then the required views; it
      adds one WARNING per required object not created and nothing else. */
  function TestDataFlow(t: Tester, tableMatches: seq<string>, viewMatches: seq<string>): (u: Tester)
    ensures Valid(t) ==> Valid(u)
    ensures Extends(t, u)
    ensures u.success == t.success
    ensures AllWarnings(u.issues[|t.issues|..])
    ensures |u.issues| == |t.issues| + |Missing(RequiredTables, CreatedObjects(tableMatches))|
                                     + |Missing(RequiredViews, CreatedObjects(viewMatches))|
    ensures forall n :: n in RequiredTables ==>
      (ObjectWarning("TABLE", n) in u.issues[|t.issues|..] <==> Upper(n) !in CreatedObjects(tableMatches))
    ensures forall n :: n in RequiredViews ==>
      (ObjectWarning("VIEW", n) in u.issues[|t.issues|..] <==> Upper(n) !in CreatedObjects(viewMatches))
  {
    var tables := CheckObjectCreation(t, RequiredTables, "TABLE", tableMatches);
    var u := CheckObjectCreation(tables, RequiredViews, "VIEW", viewMatches);
    ExtendsTrans(t, tables, u);
    WarningsChain(t, tables, u);
    DataFlowNames(t, tables, u);
    u
  }

  /** Each of the two steps of the data-flow test reports its own kind of
      object: a TABLE warning comes from the first, a VIEW warning from the second. */
  lemma DataFlowNames(t: Tester, tables: Tester, u: Tester)
    requires Extends(t, tables) && Extends(tables, u)
    requires forall w :: w in tables.issues[|t.issues|..] ==> exists n :: w == ObjectWarning("TABLE", n)
    requires forall w :: w in u.issues[|tables.issues|..] ==> exists n :: w == ObjectWarning("VIEW", n)
    ensures forall n :: ObjectWarning("TABLE", n) in u.issues[|t.issues|..] <==> ObjectWarning("TABLE", n) in tables.issues[|t.issues|..]
    ensures forall n :: ObjectWarning("VIEW", n) in u.issues[|t.issues|..] <==> ObjectWarning("VIEW", n) in u.issues[|tables.issues|..]
  {
    var a := tables.issues[|t.issues|..];
    var b := u.issues[|tables.issues|..];
    assert u.issues[|t.issues|..] == a + b;
    forall n
      ensures ObjectWarning("TABLE", n) !in b && ObjectWarning("VIEW", n) !in a
    {
      forall w | w in b ensures w != ObjectWarning("TABLE", n) {
        var m :| w == ObjectWarning("VIEW", m);
        KindsDiffer(n, m);
      }
      forall w | w in a ensures w != ObjectWarning("VIEW", n) {
        var m :| w == ObjectWarning("TABLE", m);
        KindsDiffer(m, n);
      }
    }
  }

  lemma KindsDiffer(n: string, m: string)
    ensures ObjectWarning("TABLE", n) != ObjectWarning("VIEW", m)
  {
    assert ObjectWarning("TABLE", n).description[9] == 'T';
    assert ObjectWarning("VIEW", m).description[9] == 'V';
  }

  /** The records added by two steps in turn are the first step's then the second's. */
  lemma WarningsChain(a: Tester, b: Tester, c: Tester)
    requires Extends(a, b) && Extends(b, c)
    requires AllWarnings(b.issues[|a.issues|..]) && AllWarnings(c.issues[|b.issues|..])
    ensures AllWarnings(c.issues[|a.issues|..])
  {
    forall i | |a.issues| <= i < |c.issues|
      ensures c.issues[i].severity == Warning
    {
      if i < |b.issues| {
        assert c.issues[i] == c.issues[..|b.issues|][i] == b.issues[i] == b.issues[|a.issues|..][i - |a.issues|];
      } else {
        assert c.issues[i] == c.issues[|b.issues|..][i - |b.issues|];
      }
    }
    assert forall j :: 0 <= j < |c.issues| - |a.issues| ==> c.issues[|a.issues|..][j] == c.issues[|a.issues| + j];
  }

  lemma ExtendsTrans(a: Tester, b: Tester, c: Tester)
    requires Extends(a, b) && Extends(b, c)
    ensures Extends(a, c)
  {
    assert c.issues[..|a.issues|] == c.issues[..|b.issues|][..|a.issues|];
  }

  // ---------------------------------------------------------------------------
  // The whole run

  /** What the file system and the validator subprocess provide. */
  datatype Environment = Environment(
    root: string,
    syntaxInputs: seq<SyntaxInput>,
    existing: map<string, string>,
    validator: ValidatorRun,
    tableMatches: seq<string>,
    viewMatches: seq<string>)

  /** `run_comprehensive_test`: the five steps in order from a fresh tester
      (the workflow simulation records nothing). */
  function RunComprehensiveTest(env: Environment): (t: Tester)
    ensures Valid(t)
  {
    var t1 := TestSqlSyntax(NewTester(), env.syntaxInputs);
    var t2 := TestExecutionOrder(t1, env.root, env.existing);
    var t3 := TestUdfConsistency(t2, env.validator);
    TestDataFlow(t3, env.tableMatches, env.viewMatches)
  }

  /** A run succeeds exactly when every step up to the data-flow check left
      the flag set: every script is readable, every script of the order
      exists, and the validator returned 0 or could not be run. */
  lemma RunSucceeds(env: Environment)
    ensures RunComprehensiveTest(env).success <==>
      && (forall i :: 0 <= i < |env.syntaxInputs| ==> env.syntaxInputs[i].Read?)
      && (forall k :: 0 <= k < |ScriptOrder| ==> ScriptOrder[k] in env.existing)
      && !(env.validator.Exited? && env.validator.code != 0)
  {
  }

  // ---------------------------------------------------------------------------
  // Verdict and exit code

  datatype Verdict = AllPassed | Failed | PassedWithWarnings

  /** `_generate_final_report`'s conclusion. */
  function FinalVerdict(t: Tester): (v: Verdict)
    ensures v == AllPassed <==> t.issues == []
    ensures v == Failed <==> HasError(t.issues)
  {
    if t.issues == [] then AllPassed
    else if exists i :: 0 <= i < |t.issues| && t.issues[i].severity == Error then Failed
    else PassedWithWarnings
  }

  /** On a tester that keeps its invariant the report says "failed" exactly
      when the run did not succeed. */
  lemma VerdictMatchesSuccess(t: Tester)
    requires Valid(t)
    ensures FinalVerdict(t) == Failed <==> !t.success
    ensures FinalVerdict(t) == AllPassed ==> t.success
  {
  }

  /** `sys.exit(0 if success else 1)`. */
  function ExitCode(success: bool): (r: int)
    ensures r == 0 <==> success
    ensures r == 0 || r == 1
  {
    if success then 0 else 1
  }
}

=== FILE: param_split.dfy ===
/** The validator's two parameter-list splitters. `_parse_parameters` cuts a
    `CREATE FUNCTION` parameter list at the commas outside parentheses and
    keeps the first word of each piece; `_parse_call_parameters` cuts a call's
    argument list at the commas outside parentheses and outside quotes.

    Both are modelled twice: `Scan` is the character loop as written, and
    `Segments` is the reference "the pieces between the top-level commas".
    `ScanFollowsSegments` proves the two agree. */
module ParamSplit {
  import opened Text

  datatype Mode = DefinitionList | CallList

  /** The loop variables: `paren_depth`, `quote_char`, `current_param`, `params`. */
  datatype ScanState = ScanState(depth: int, quote: Option<char>, current: string, params: seq<string>)

  const Start := ScanState(0, None, "", [])

  predicate IsQuoteChar(c: char) {
    c == '"' || c == '\''
  }

  /** One iteration of the `for char in params_str` loop of either splitter. */
  function Step(mode: Mode, st: ScanState, c: char): ScanState {
    match mode
    case DefinitionList =>
      if c == '(' then st.(depth := st.depth + 1, current := st.current + [c])
      else if c == ')' then st.(depth := st.depth - 1, current := st.current + [c])
      else if c == ',' && st.depth == 0 then st.(params := st.params + [Strip(st.current)], current := "")
      else st.(current := st.current + [c])
    case CallList =>
      if st.quote.Some? then
        if c == st.quote.value then st.(quote := None, current := st.current + [c])
        else st.(current := st.current + [c])
      else if IsQuoteChar(c) then st.(quote := Some(c), current := st.current + [c])
      else if c == '(' then st.(depth := st.depth + 1, current := st.current + [c])
      else if c == ')' then st.(depth := st.depth - 1, current := st.current + [c])
      else if c == ',' && st.depth == 0 && st.quote.None? then st.(params := st.params + [Strip(st.current)], current := "")
      else st.(current := st.current + [c])
  }

  /** The loop state after reading all of `s`. */
  function Scan(mode: Mode, s: string): ScanState
    decreases |s|
  {
    if s == [] then Start else Step(mode, Scan(mode, s[..|s| - 1]), s[|s| - 1])
  }

  // ---------------------------------------------------------------------------
  // Reference definitions

  /** Net parenthesis nesting of `t`: opening minus closing parentheses. */
  function Balance(t: string): int {
    multiset(t)['('] as int - multiset(t)[')'] as int
  }

  /** The quote left open at the end of `t`: a `"` or `'` outside quotes opens
      a quoted span, and only the same character closes it. */
  function OpenQuote(t: string): Option<char>
    decreases |t|
  {
    if t == [] then None
    else
      var q := OpenQuote(t[..|t| - 1]);
      var c := t[|t| - 1];
      if q.Some? then (if c == q.value then None else q)
      else if IsQuoteChar(c) then Some(c)
      else None
  }

  /** Net nesting of the parentheses of `t` that stand outside quotes. */
  function UnquotedBalance(t: string): int
    decreases |t|
  {
    if t == [] then 0
    else
      var u := t[..|t| - 1];
      var c := t[|t| - 1];
      UnquotedBalance(u) + (if OpenQuote(u).Some? then 0 else if c == '(' then 1 else if c == ')' then -1 else 0)
  }

  /** After reading `t`, the splitter of `mode` is outside all nesting. */
  predicate AtTopLevel(mode: Mode, t: string) {
    match mode
    case DefinitionList => Balance(t) == 0
    case CallList => OpenQuote(t).None? && UnquotedBalance(t) == 0
  }

  /** Position `i` of `s` is a comma that separates two pieces. */
  predicate IsSeparator(mode: Mode, s: string, i: int)
    requires 0 <= i < |s|
  {
    s[i] == ',' && AtTopLevel(mode, s[..i])
  }

  /** The last separator of `s` below position `k`, if any. */
  function LastSeparatorBelow(mode: Mode, s: string, k: nat): (r: Option<nat>)
    requires k <= |s|
    ensures r.Some? ==> r.value < k && IsSeparator(mode, s, r.value)
    ensures forall j :: (if r.Some? then r.value + 1 else 0) <= j < k ==> !IsSeparator(mode, s, j)
    decreases k
  {
    if k == 0 then None
    else if IsSeparator(mode, s, k - 1) then Some(k - 1)
    else LastSeparatorBelow(mode, s, k - 1)
  }

  /** The pieces of `s` between its separators, the separators dropped. */
  function Segments(mode: Mode, s: string): (segs: seq<string>)
    ensures |segs| >= 1
    decreases |s|
  {
    match LastSeparatorBelow(mode, s, |s|)
    case None => [s]
    case Some(i) => Segments(mode, s[..i]) + [s[i + 1..]]
  }

  /** Python's `[p for p in xs if p.strip()]`. */
  function NonBlank(xs: seq<string>): (r: seq<string>)
    ensures forall k :: 0 <= k < |r| ==> !IsBlank(r[k]) && r[k] in xs
    ensures forall x :: x in xs && !IsBlank(x) ==> x in r
    decreases |xs|
  {
    if xs == [] then []
    else
      var init := xs[..|xs| - 1];
      var last := xs[|xs| - 1];
      assert forall x :: x in xs ==> x in init || x == last;
      NonBlank(init) + (if IsBlank(last) then [] else [last])
  }

  function MapStrip(xs: seq<string>): (r: seq<string>)
    ensures |r| == |xs|
    ensures forall k :: 0 <= k < |xs| ==> r[k] == Strip(xs[k])
  {
    seq(|xs|, k requires 0 <= k < |xs| => Strip(xs[k]))
  }

  function FirstTokens(xs: seq<string>): (r: seq<string>)
    requires forall k :: 0 <= k < |xs| ==> !IsBlank(xs[k])
    ensures |r| == |xs|
    ensures forall k :: 0 <= k < |xs| ==> r[k] == FirstToken(xs[k])
  {
    seq(|xs|, k requires 0 <= k < |xs| => FirstToken(xs[k]))
  }

  /** The stripped top-level pieces of `s` that are not blank. */
  function NonBlankSegments(mode: Mode, s: string): seq<string> {
    NonBlank(MapStrip(Segments(mode, s)))
  }

  // ---------------------------------------------------------------------------
  // The two splitters

  /** `_parse_parameters`: the name of each non-blank top-level parameter. */
  function ParseParameters(paramsText: string): (names: seq<string>)
    ensures names == FirstTokens(NonBlankSegments(DefinitionList, paramsText))
    ensures IsBlank(paramsText) ==> names == []
    ensures forall k :: 0 <= k < |names| ==> names[k] != [] && HasNoSpace(names[k])
  {
    if Strip(paramsText) == [] then
      BlankHasNoSegments(DefinitionList, paramsText);
      []
    else
      var st := Scan(DefinitionList, paramsText);
      var params := if Strip(st.current) != [] then st.params + [Strip(st.current)] else st.params;
      FinalParams(DefinitionList, paramsText);
      FirstTokens(NonBlank(params))
  }

  /** `_parse_call_parameters`: each non-blank top-level argument, stripped. */
  function ParseCallParameters(argsText: string): (args: seq<string>)
    ensures args == NonBlankSegments(CallList, argsText)
    ensures IsBlank(argsText) ==> args == []
    ensures forall k :: 0 <= k < |args| ==> args[k] != [] && IsTrimmed(args[k])
  {
    if Strip(argsText) == [] then
      BlankHasNoSegments(CallList, argsText);
      []
    else
      var st := Scan(CallList, argsText);
      var params := if Strip(st.current) != [] then st.params + [Strip(st.current)] else st.params;
      FinalParams(CallList, argsText);
      NonBlankSegmentsTrimmed(CallList, argsText);
      NonBlank(params)
  }

  lemma {:induction false} NonBlankOfTrimmed(xs: seq<string>)
    requires forall k :: 0 <= k < |xs| ==> IsTrimmed(xs[k])
    ensures forall k :: 0 <= k < |NonBlank(xs)| ==> IsTrimmed(NonBlank(xs)[k]) && NonBlank(xs)[k] != []
    decreases |xs|
  {
    if xs != [] {
      NonBlankOfTrimmed(xs[..|xs| - 1]);
    }
  }

  lemma NonBlankSegmentsTrimmed(mode: Mode, s: string)
    ensures forall k :: 0 <= k < |NonBlankSegments(mode, s)| ==>
      NonBlankSegments(mode, s)[k] != [] && IsTrimmed(NonBlankSegments(mode, s)[k])
  {
    NonBlankOfTrimmed(MapStrip(Segments(mode, s)));
  }

  // ---------------------------------------------------------------------------
  // The loop follows the reference

  /** The loop's depth and quote variables hold the reference values. */
  predicate LevelAgrees(mode: Mode, st: ScanState, t: string) {
    match mode
    case DefinitionList => st.depth == Balance(t) && st.quote.None?
    case CallList => st.depth == UnquotedBalance(t) && st.quote == OpenQuote(t)
  }

  lemma {:induction false} SeparatorsOfPrefix(mode: Mode, u: string, c: char, k: nat)
    requires k <= |u|
    ensures LastSeparatorBelow(mode, u + [c], k) == LastSeparatorBelow(mode, u, k)
    decreases k
  {
    if k > 0 {
      var s := u + [c];
      assert s[..k - 1] == u[..k - 1];
      SeparatorsOfPrefix(mode, u, c, k - 1);
    }
  }

  /** Reading one more character either opens a new empty piece (at a
      separator) or extends the last piece. */
  lemma SegmentsSnoc(mode: Mode, u: string, c: char)
    ensures var segs := Segments(mode, u);
      if c == ',' && AtTopLevel(mode, u) then Segments(mode, u + [c]) == segs + [""]
      else Segments(mode, u + [c]) == segs[..|segs| - 1] + [segs[|segs| - 1] + [c]]
  {
    var s := u + [c];
    assert s[..|u|] == u;
    if c == ',' && AtTopLevel(mode, u) {
      SegmentsAtSeparator(mode, u, c);
    } else {
      SegmentsInsidePiece(mode, u, c);
    }
  }

  lemma SegmentsAtSeparator(mode: Mode, u: string, c: char)
    requires c == ',' && AtTopLevel(mode, u)
    ensures Segments(mode, u + [c]) == Segments(mode, u) + [""]
  {
    var s := u + [c];
    assert s[..|u|] == u;
    assert IsSeparator(mode, s, |u|);
    assert LastSeparatorBelow(mode, s, |s|) == Some(|u|);
    assert s[|u| + 1..] == [];
  }

  lemma SegmentsInsidePiece(mode: Mode, u: string, c: char)
    requires !(c == ',' && AtTopLevel(mode, u))
    ensures var segs := Segments(mode, u);
      Segments(mode, u + [c]) == segs[..|segs| - 1] + [segs[|segs| - 1] + [c]]
  {
    LastSeparatorKept(mode, u, c);
    match LastSeparatorBelow(mode, u, |u|)
    case None =>
    case Some(i) => LastPieceExtended(mode, u, c, i);
  }

  /** A character that is not a separator leaves the last separator where it was. */
  lemma LastSeparatorKept(mode: Mode, u: string, c: char)
    requires !(c == ',' && AtTopLevel(mode, u))
    ensures LastSeparatorBelow(mode, u + [c], |u| + 1) == LastSeparatorBelow(mode, u, |u|)
  {
    var s := u + [c];
    assert s[..|u|] == u;
    assert !IsSeparator(mode, s, |u|);
    SeparatorsOfPrefix(mode, u, c, |u|);
  }

  lemma LastPieceExtended(mode: Mode, u: string, c: char, i: nat)
    requires LastSeparatorBelow(mode, u + [c], |u| + 1) == Some(i)
    requires LastSeparatorBelow(mode, u, |u|) == Some(i)
    ensures var segs := Segments(mode, u);
      Segments(mode, u + [c]) == segs[..|segs| - 1] + [segs[|segs| - 1] + [c]]
  {
    var s := u + [c];
    SegmentsAt(mode, s, i);
    SegmentsAt(mode, u, i);
    assert s[..i] == u[..i];
    assert s[i + 1..] == u[i + 1..] + [c];
  }

  lemma SegmentsAt(mode: Mode, s: string, i: nat)
    requires LastSeparatorBelow(mode, s, |s|) == Some(i)
    ensures i < |s| && Segments(mode, s) == Segments(mode, s[..i]) + [s[i + 1..]]
  {
  }

  lemma LevelStep(mode: Mode, st: ScanState, u: string, c: char)
    requires LevelAgrees(mode, st, u)
    ensures LevelAgrees(mode, Step(mode, st, c), u + [c])
    ensures var st' := Step(mode, st, c);
      if c == ',' && AtTopLevel(mode, u) then st'.params == st.params + [Strip(st.current)] && st'.current == ""
      else st'.params == st.params && st'.current == st.current + [c]
  {
    var s := u + [c];
    assert s[..|s| - 1] == u;
    assert multiset(s) == multiset(u) + multiset{c};
  }

  /** The character loop computes the stripped reference pieces: every piece
      but the last is in `params`, and the last is `current_param`. */
  lemma {:induction false} ScanFollowsSegments(mode: Mode, s: string)
    ensures var st := Scan(mode, s); var segs := Segments(mode, s);
      && LevelAgrees(mode, st, s)
      && st.params == MapStrip(segs[..|segs| - 1])
      && st.current == segs[|segs| - 1]
    decreases |s|
  {
    if s == [] {
      assert Segments(mode, s) == [s];
    } else {
      var u := s[..|s| - 1];
      var c := s[|s| - 1];
      assert u + [c] == s;
      ScanFollowsSegments(mode, u);
      LevelStep(mode, Scan(mode, u), u, c);
      SegmentsSnoc(mode, u, c);
      PiecesStep(mode, Scan(mode, u), Segments(mode, u), u, c, Scan(mode, s), Segments(mode, s));
    }
  }

  lemma PiecesStep(mode: Mode, st: ScanState, segs: seq<string>, u: string, c: char, st': ScanState, segs': seq<string>)
    requires |segs| >= 1
    requires st.params == MapStrip(segs[..|segs| - 1]) && st.current == segs[|segs| - 1]
    requires if c == ',' && AtTopLevel(mode, u) then st'.params == st.params + [Strip(st.current)] && st'.current == ""
      else st'.params == st.params && st'.current == st.current + [c]
    requires if c == ',' && AtTopLevel(mode, u) then segs' == segs + [""]
      else segs' == segs[..|segs| - 1] + [segs[|segs| - 1] + [c]]
    ensures st'.params == MapStrip(segs'[..|segs'| - 1]) && st'.current == segs'[|segs'| - 1]
  {
    if c == ',' && AtTopLevel(mode, u) {
      assert segs'[..|segs'| - 1] == segs;
      MapStripSnoc(segs);
    } else {
      assert segs'[..|segs'| - 1] == segs[..|segs| - 1];
    }
  }

  lemma MapStripSnoc(xs: seq<string>)
    requires |xs| >= 1
    ensures MapStrip(xs) == MapStrip(xs[..|xs| - 1]) + [Strip(xs[|xs| - 1])]
  {
    var a := MapStrip(xs);
    var b := MapStrip(xs[..|xs| - 1]) + [Strip(xs[|xs| - 1])];
    assert |a| == |b|;
    forall k | 0 <= k < |a| ensures a[k] == b[k] {
      if k < |xs| - 1 {
        assert b[k] == MapStrip(xs[..|xs| - 1])[k];
      }
    }
  }

  lemma TrimmedBlank(t: string)
    requires IsTrimmed(t)
    ensures IsBlank(t) <==> t == []
  {
    if t != [] {
      assert !IsSpace(t[0]);
    }
  }

  /** The list the splitters filter equals the stripped reference pieces, up to blank pieces. */
  lemma FinalParams(mode: Mode, s: string)
    ensures var st := Scan(mode, s);
      var params := if Strip(st.current) != [] then st.params + [Strip(st.current)] else st.params;
      NonBlank(params) == NonBlankSegments(mode, s)
  {
    ScanFollowsSegments(mode, s);
    var st := Scan(mode, s);
    FinalPieces(Segments(mode, s), st.params, st.current);
  }

  lemma FinalPieces(segs: seq<string>, params: seq<string>, current: string)
    requires |segs| >= 1
    requires params == MapStrip(segs[..|segs| - 1]) && current == segs[|segs| - 1]
    ensures var final := if Strip(current) != [] then params + [Strip(current)] else params;
      NonBlank(final) == NonBlank(MapStrip(segs))
  {
    var last := Strip(current);
    MapStripSnoc(segs);
    NonBlankSnoc(params, last);
    TrimmedBlank(last);
  }

  lemma NonBlankSnoc(xs: seq<string>, x: string)
    ensures NonBlank(xs + [x]) == NonBlank(xs) + (if IsBlank(x) then [] else [x])
  {
    assert (xs + [x])[..|xs|] == xs;
  }

  lemma {:induction false} NoCommaNoSeparator(mode: Mode, s: string, k: nat)
    requires k <= |s|
    requires forall i :: 0 <= i < |s| ==> s[i] != ','
    ensures LastSeparatorBelow(mode, s, k).None?
    decreases k
  {
    if k > 0 {
      NoCommaNoSeparator(mode, s, k - 1);
    }
  }

  lemma BlankHasNoSegments(mode: Mode, s: string)
    requires IsBlank(s)
    ensures NonBlankSegments(mode, s) == []
  {
    assert forall i :: 0 <= i < |s| ==> s[i] != ',';
    NoCommaNoSeparator(mode, s, |s|);
    assert Segments(mode, s) == [s];
    assert MapStrip([s]) == [Strip(s)];
    assert NonBlank([Strip(s)]) == NonBlank([]) + [];
  }

  // ---------------------------------------------------------------------------
  // Properties of the reference

  lemma JoinSnoc(sep: string, xs: seq<string>, x: string)
    requires |xs| >= 1
    ensures Join(sep, xs + [x]) == Join(sep, xs) + sep + x
  {
    assert (xs + [x])[..|xs|] == xs;
  }

  /** Joining the pieces with commas gives the input back: the splitter drops
      exactly the separating commas and nothing else. */
  lemma {:induction false} SegmentsJoin(mode: Mode, s: string)
    ensures Join(",", Segments(mode, s)) == s
    decreases |s|
  {
    match LastSeparatorBelow(mode, s, |s|)
    case None =>
      assert Segments(mode, s) == [s];
    case Some(i) =>
      var init := Segments(mode, s[..i]);
      assert Segments(mode, s) == init + [s[i + 1..]];
      SegmentsJoin(mode, s[..i]);
      JoinSnoc(",", init, s[i + 1..]);
      RejoinAt(s, i);
  }

  lemma RejoinAt(s: string, i: nat)
    requires i < |s| && s[i] == ','
    ensures s[..i] + "," + s[i + 1..] == s
  {
  }

  /** The number of separators of `s` below position `k`. */
  function SeparatorCount(mode: Mode, s: string, k: nat): nat
    requires k <= |s|
    decreases k
  {
    if k == 0 then 0
    else SeparatorCount(mode, s, k - 1) + (if IsSeparator(mode, s, k - 1) then 1 else 0)
  }

  lemma {:induction false} SeparatorCountPrefix(mode: Mode, s: string, i: nat, k: nat)
    requires k <= i <= |s|
    ensures SeparatorCount(mode, s[..i], k) == SeparatorCount(mode, s, k)
    decreases k
  {
    if k > 0 {
      SeparatorCountPrefix(mode, s, i, k - 1);
      assert s[..i][..k - 1] == s[..k - 1];
    }
  }

  lemma {:induction false} SeparatorCountGap(mode: Mode, s: string, i: nat, k: nat)
    requires i <= k <= |s|
    requires forall j :: i <= j < k ==> !IsSeparator(mode, s, j)
    ensures SeparatorCount(mode, s, k) == SeparatorCount(mode, s, i)
    decreases k
  {
    if k > i {
      SeparatorCountGap(mode, s, i, k - 1);
    }
  }

  /** There is one more piece than there are separating commas. */
  lemma {:induction false} SegmentCount(mode: Mode, s: string)
    ensures |Segments(mode, s)| == SeparatorCount(mode, s, |s|) + 1
    decreases |s|
  {
    match LastSeparatorBelow(mode, s, |s|)
    case None =>
      SeparatorCountGap(mode, s, 0, |s|);
    case Some(i) =>
      SegmentCount(mode, s[..i]);
      SeparatorCountPrefix(mode, s, i, i);
      SeparatorCountGap(mode, s, i + 1, |s|);
  }

  /** A comma inside a parenthesised group never separates definition
      parameters: in `p NUMBER(10,2)` the comma belongs to the type. */
  lemma ParenthesizedCommasDoNotSplit(u: string, w: string, rest: string)
    requires Balance(u) >= 0
    requires forall k :: 0 <= k <= |w| ==> Balance(w[..k]) >= 0
    ensures var s := u + "(" + w + rest;
      forall j :: |u| < j <= |u| + |w| ==> !IsSeparator(DefinitionList, s, j)
  {
    var s := u + "(" + w + rest;
    forall j | |u| < j <= |u| + |w|
      ensures !IsSeparator(DefinitionList, s, j)
    {
      var k := j - |u| - 1;
      assert s[..j] == u + "(" + w[..k];
      assert multiset(s[..j]) == multiset(u) + multiset{'('} + multiset(w[..k]);
      assert Balance(s[..j]) == Balance(u) + 1 + Balance(w[..k]);
    }
  }

  lemma {:induction false} InsideQuote(p: string, q: char, w: string)
    requires OpenQuote(p) == Some(q)
    requires q !in w
    ensures OpenQuote(p + w) == Some(q)
    ensures UnquotedBalance(p + w) == UnquotedBalance(p)
    decreases |w|
  {
    if w == [] {
      assert p + w == p;
    } else {
      var w0 := w[..|w| - 1];
      assert w[|w| - 1] in w;
      assert forall x :: x in w0 ==> x in w;
      InsideQuote(p, q, w0);
      var t := p + w;
      assert t[..|t| - 1] == p + w0;
      assert t[|t| - 1] == w[|w| - 1] != q;
    }
  }

  /** A quoted span is inert for the call splitter: commas in it never
      separate, parentheses in it leave the depth alone, and the span ends
      only at the same quote character that opened it. */
  lemma QuotedSpansAreInert(u: string, q: char, w: string, rest: string)
    requires OpenQuote(u).None? && IsQuoteChar(q)
    requires q !in w
    ensures var s := u + [q] + w + rest;
      forall j :: |u| < j <= |u| + |w| ==> !IsSeparator(CallList, s, j)
    ensures UnquotedBalance(u + [q] + w) == UnquotedBalance(u)
    ensures OpenQuote(u + [q] + w) == Some(q)
    ensures OpenQuote(u + [q] + w + [q]).None?
  {
    var p := u + [q];
    assert p[..|p| - 1] == u;
    InsideQuote(p, q, w);
    var s := u + [q] + w + rest;
    forall j | |u| < j <= |u| + |w|
      ensures !IsSeparator(CallList, s, j)
    {
      var k := j - |u| - 1;
      assert s[..j] == p + w[..k];
      InsideQuote(p, q, w[..k]);
    }
    var t := u + [q] + w + [q];
    assert t[..|t| - 1] == u + [q] + w;
  }
}

=== FILE: registry.dfy ===
/** Python dictionaries filled by repeated assignment `d[k] = v`: the
    validator's function definitions (keyed by upper-cased name) and each
    script's `USE` context (keyed by context kind) are both built this way,
    so a later entry for a key replaces an earlier one. */
module Registry {
  import opened Text

  /** `d[k] = v` for each entry `(k, v)` of `entries`, in order, starting from `m`. */
  function Overwrite<K, V>(m: map<K, V>, entries: seq<(K, V)>): map<K, V>
    decreases |entries|
  {
    if entries == [] then m
    else
      var last := entries[|entries| - 1];
      Overwrite(m, entries[..|entries| - 1])[last.0 := last.1]
  }

  /** The position of the last entry for key `k`, if any. */
  function LastIndexOf<K(==), V>(entries: seq<(K, V)>, k: K): (r: Option<nat>)
    ensures r.Some? ==> r.value < |entries| && entries[r.value].0 == k
    ensures r.Some? ==> forall j :: r.value < j < |entries| ==> entries[j].0 != k
    ensures r.None? ==> forall j :: 0 <= j < |entries| ==> entries[j].0 != k
    decreases |entries|
  {
    if entries == [] then None
    else if entries[|entries| - 1].0 == k then Some(|entries| - 1)
    else LastIndexOf(entries[..|entries| - 1], k)
  }

  /** The key set grows by the keys of the entries, and each key carries the
      value of its last entry (or its old value when no entry names it). */
  lemma {:induction false} LastWins<K, V>(m: map<K, V>, entries: seq<(K, V)>, k: K)
    ensures k in Overwrite(m, entries) <==> k in m || LastIndexOf(entries, k).Some?
    ensures LastIndexOf(entries, k).Some? ==>
      Overwrite(m, entries)[k] == entries[LastIndexOf(entries, k).value].1
    ensures LastIndexOf(entries, k).None? && k in m ==> Overwrite(m, entries)[k] == m[k]
    decreases |entries|
  {
    if entries != [] {
      LastWins(m, entries[..|entries| - 1], k);
    }
  }
}

=== FILE: severity.dfy ===
/** The three severities both test scripts record: `'ERROR'`, `'WARNING'` and `'INFO'`. */
module Severities {
  datatype Severity = Error | Warning | Info
}

=== FILE: text.dfy ===
/** String helpers shared by the validator, the dry-run tester and the chat
    app: Python's whitespace class, `strip`, `split()[0]`, `in` on strings,
    `str.join`, ASCII case mapping and decimal rendering of integers. */
module Text {

  datatype Option<+T> = None | Some(value: T)

  /** Python's `str.isspace`: the characters `strip()` and `split()` remove. */
  predicate IsSpace(c: char) {
    || c == ' ' || c == '\t' || c == '\n' || c == '\r'
    || c == '\U{B}' || c == '\U{C}'
    || ('\U{1C}' <= c <= '\U{1F}')
    || c == '\U{85}' || c == '\U{A0}' || c == '\U{1680}'
    || ('\U{2000}' <= c <= '\U{200A}')
    || c == '\U{2028}' || c == '\U{2029}' || c == '\U{202F}' || c == '\U{205F}' || c == '\U{3000}'
  }

  /** `not s.strip()` in Python: empty or whitespace only. */
  predicate IsBlank(s: string) {
    forall i :: 0 <= i < |s| ==> IsSpace(s[i])
  }

  /** Neither starts nor ends with whitespace. */
  predicate IsTrimmed(s: string) {
    s == [] || (!IsSpace(s[0]) && !IsSpace(s[|s| - 1]))
  }

  function TrimLeft(s: string): (r: string)
    ensures |r| <= |s| && r == s[|s| - |r|..]
    ensures IsBlank(s[..|s| - |r|])
    ensures r == [] || !IsSpace(r[0])
    decreases |s|
  {
    if s == [] || !IsSpace(s[0]) then s
    else
      var r := TrimLeft(s[1..]);
      LeadingBlank(s, |s| - |r|);
      r
  }

  function TrimRight(s: string): (r: string)
    ensures |r| <= |s| && r == s[..|r|]
    ensures IsBlank(s[|r|..])
    ensures r == [] || !IsSpace(r[|r| - 1])
    decreases |s|
  {
    if s == [] || !IsSpace(s[|s| - 1]) then s
    else
      var r := TrimRight(s[..|s| - 1]);
      TrailingBlank(s, |r|);
      r
  }

  /** A space in front of a blank prefix of the rest extends it. */
  lemma LeadingBlank(s: string, k: nat)
    requires 1 <= k <= |s| && IsSpace(s[0]) && IsBlank(s[1..][..k - 1])
    ensures IsBlank(s[..k])
    ensures s[1..][k - 1..] == s[k..]
  {
    forall i | 0 <= i < k
      ensures IsSpace(s[..k][i])
    {
      if i > 0 {
        assert s[..k][i] == s[1..][..k - 1][i - 1];
      }
    }
  }

  /** A space behind a blank suffix of the rest extends it. */
  lemma TrailingBlank(s: string, k: nat)
    requires k < |s| && IsSpace(s[|s| - 1]) && IsBlank(s[..|s| - 1][k..])
    ensures IsBlank(s[k..])
    ensures s[..|s| - 1][..k] == s[..k]
  {
    forall i | 0 <= i < |s| - k
      ensures IsSpace(s[k..][i])
    {
      if i < |s| - 1 - k {
        assert s[k..][i] == s[..|s| - 1][k..][i];
      }
    }
  }

  /** Python's `s.strip()`: `s` without its leading and trailing whitespace.
      The result is a slice of `s` with only whitespace on either side of it,
      and it neither starts nor ends with whitespace, so no longer slice with
      that property exists. */
  function Strip(s: string): (r: string)
    ensures exists lead :: BlankMargins(s, r, lead)
    ensures IsTrimmed(r)
    ensures r == [] <==> IsBlank(s)
  {
    StripSuffix(s, TrimLeft(s))
  }

  /** The right trim of `l`, the part of `s` left after its leading whitespace. */
  function StripSuffix(s: string, l: string): (r: string)
    requires |l| <= |s| && l == s[|s| - |l|..] && IsBlank(s[..|s| - |l|]) && (l == [] || !IsSpace(l[0]))
    ensures exists lead :: BlankMargins(s, r, lead)
    ensures IsTrimmed(r)
    ensures r == [] <==> IsBlank(s)
  {
    var r := TrimRight(l);
    StripFacts(s, l, r);
    r
  }

  /** `r` sits at offset `lead` of `s` with only whitespace before and after it. */
  predicate BlankMargins(s: string, r: string, lead: int)
  {
    0 <= lead <= |s| - |r| && r == s[lead..lead + |r|]
    && IsBlank(s[..lead]) && IsBlank(s[lead + |r|..])
  }

  /** What `strip` removes is whitespace: the result is the middle of `s`. */
  lemma StripFacts(s: string, l: string, r: string)
    requires |l| <= |s| && l == s[|s| - |l|..] && IsBlank(s[..|s| - |l|]) && (l == [] || !IsSpace(l[0]))
    requires |r| <= |l| && r == l[..|r|] && IsBlank(l[|r|..]) && (r == [] || !IsSpace(r[|r| - 1]))
    ensures IsTrimmed(r)
    ensures r == [] <==> IsBlank(s)
    ensures BlankMargins(s, r, |s| - |l|)
    ensures exists lead :: BlankMargins(s, r, lead)
  {
    var lead := |s| - |l|;
    SliceOfSuffix(s, lead, |r|);
    if r == [] {
      assert l[0..] == l;
      BlankParts(s, lead);
    } else {
      assert r[0] == l[0];
      assert s[lead] == l[0];
      assert !IsSpace(s[lead]);
    }
    assert BlankMargins(s, r, lead);
  }

  lemma SliceOfSuffix(s: string, lead: nat, n: nat)
    requires lead + n <= |s|
    ensures s[lead..][..n] == s[lead..lead + n]
    ensures s[lead + n..] == s[lead..][n..]
  {
  }

  lemma BlankParts(s: string, lead: nat)
    requires lead <= |s|
    requires IsBlank(s[..lead]) && IsBlank(s[lead..])
    ensures IsBlank(s)
  {
    forall i | 0 <= i < |s| ensures IsSpace(s[i]) {
      if i < lead { assert s[i] == s[..lead][i]; } else { assert s[i] == s[lead..][i - lead]; }
    }
  }

  lemma StripOfTrimmed(s: string)
    requires IsTrimmed(s)
    ensures Strip(s) == s
  {
    if s != [] {
      assert TrimLeft(s) == s;
      assert TrimRight(s) == s;
    }
  }

  predicate HasNoSpace(s: string) {
    forall i :: 0 <= i < |s| ==> !IsSpace(s[i])
  }

  /** The leading run of non-whitespace characters of `s`. */
  function TakeWord(s: string): (r: string)
    ensures |r| <= |s| && r == s[..|r|]
    ensures HasNoSpace(r)
    ensures |r| == |s| || IsSpace(s[|r|])
    decreases |s|
  {
    if s == [] || IsSpace(s[0]) then [] else [s[0]] + TakeWord(s[1..])
  }

  /** Python's `s.split()[0]`, defined when `s` is not blank: the first run of
      non-whitespace characters, preceded only by whitespace. */
  function FirstToken(s: string): (r: string)
    requires !IsBlank(s)
    ensures r != [] && HasNoSpace(r)
    ensures var lead := |s| - |TrimLeft(s)|;
      && IsBlank(s[..lead])
      && lead + |r| <= |s| && r == s[lead..lead + |r|]
      && (lead + |r| == |s| || IsSpace(s[lead + |r|]))
  {
    var l := TrimLeft(s);
    TrimLeftOfNonBlank(s, l);
    var w := TakeWord(l);
    WordOfSuffix(s, l, w);
    w
  }

  lemma TrimLeftOfNonBlank(s: string, l: string)
    requires |l| <= |s| && l == s[|s| - |l|..] && IsBlank(s[..|s| - |l|])
    ensures l == [] ==> IsBlank(s)
  {
    if l == [] {
      assert s[..|s|] == s;
    }
  }

  lemma WordOfSuffix(s: string, l: string, w: string)
    requires |l| <= |s| && l == s[|s| - |l|..]
    requires |w| <= |l| && w == l[..|w|] && (|w| == |l| || IsSpace(l[|w|]))
    ensures var lead := |s| - |l|;
      && lead + |w| <= |s| && w == s[lead..lead + |w|]
      && (lead + |w| == |s| || IsSpace(s[lead + |w|]))
  {
    var lead := |s| - |l|;
    assert s[lead..][..|w|] == s[lead..lead + |w|];
    if |w| < |l| {
      assert l[|w|] == s[lead + |w|];
    }
  }

  /** Python's `pat in s` on strings. */
  predicate Contains(s: string, pat: string) {
    exists i | 0 <= i <= |s| - |pat| :: OccursAt(s, pat, i)
  }

  predicate OccursAt(s: string, pat: string, i: int) {
    0 <= i && i + |pat| <= |s| && s[i..i + |pat|] == pat
  }

  /** Python's `sep.join(xs)`. */
  function Join(sep: string, xs: seq<string>): string
    decreases |xs|
  {
    if |xs| == 0 then ""
    else if |xs| == 1 then xs[0]
    else Join(sep, xs[..|xs| - 1]) + sep + xs[|xs| - 1]
  }

  /** The pieces of `s` between its occurrences of `sep`, as Python's `s.split(sep)`. */
  function SplitOn(s: string, sep: char): (r: seq<string>)
    ensures |r| >= 1
    decreases |s|
  {
    if s == [] then [""]
    else
      var init := SplitOn(s[..|s| - 1], sep);
      if s[|s| - 1] == sep then init + [""]
      else init[..|init| - 1] + [init[|init| - 1] + [s[|s| - 1]]]
  }

  lemma {:induction false} SplitOnPlain(s: string, sep: char)
    requires sep !in s
    ensures SplitOn(s, sep) == [s]
    decreases |s|
  {
    if s != [] {
      SplitOnPlain(s[..|s| - 1], sep);
      assert s[..|s| - 1] + [s[|s| - 1]] == s;
    }
  }

  lemma {:induction false} SplitOnAppend(a: string, sep: char, b: string)
    requires sep !in b
    ensures var l := SplitOn(a, sep); SplitOn(a + [sep] + b, sep) == l + [b]
    decreases |b|
  {
    var s := a + [sep] + b;
    if b == [] {
      assert s[..|s| - 1] == a;
    } else {
      var b0 := b[..|b| - 1];
      SplitOnAppend(a, sep, b0);
      assert s[..|s| - 1] == a + [sep] + b0;
      assert b0 + [b[|b| - 1]] == b;
    }
  }

  /** Splitting a newline-free list of lines joined by newlines gives the list back. */
  lemma {:induction false} SplitOnJoin(sep: char, xs: seq<string>)
    requires |xs| >= 1
    requires forall k :: 0 <= k < |xs| ==> sep !in xs[k]
    ensures SplitOn(Join([sep], xs), sep) == xs
    decreases |xs|
  {
    if |xs| == 1 {
      SplitOnPlain(xs[0], sep);
    } else {
      var init := xs[..|xs| - 1];
      SplitOnJoin(sep, init);
      SplitOnAppend(Join([sep], init), sep, xs[|xs| - 1]);
      assert init + [xs[|xs| - 1]] == xs;
    }
  }

  /** `sep.join(xs)` is empty exactly when there is nothing to join but empty strings,
      that is, for the empty list and for a list of a single empty string. */
  lemma {:induction false} JoinEmpty(sep: string, xs: seq<string>)
    requires sep != []
    ensures Join(sep, xs) == [] <==> (xs == [] || xs == [[]])
  {
    if |xs| == 1 {
      assert xs == [xs[0]];
    } else if |xs| > 1 {
      assert |Join(sep, xs)| >= |sep|;
    }
  }

  /** A character that occurs in neither the separator nor any piece does not
      occur in the joined string. */
  lemma {:induction false} JoinAvoids(sep: string, xs: seq<string>, c: char)
    requires c !in sep
    requires forall k :: 0 <= k < |xs| ==> c !in xs[k]
    ensures c !in Join(sep, xs)
    decreases |xs|
  {
    if |xs| > 1 {
      JoinAvoids(sep, xs[..|xs| - 1], c);
    }
  }

  function LowerChar(c: char): char {
    if 'A' <= c <= 'Z' then (c as int + 32) as char else c
  }

  function UpperChar(c: char): char {
    if 'a' <= c <= 'z' then (c as int - 32) as char else c
  }

  /** Python's `s.lower()`, restricted to the ASCII letters. */
  function Lower(s: string): (r: string)
    ensures |r| == |s|
  {
    seq(|s|, i requires 0 <= i < |s| => LowerChar(s[i]))
  }

  /** Python's `s.upper()`, restricted to the ASCII letters. */
  function Upper(s: string): (r: string)
    ensures |r| == |s|
  {
    seq(|s|, i requires 0 <= i < |s| => UpperChar(s[i]))
  }

  lemma LowerIdempotent(s: string)
    ensures Lower(Lower(s)) == Lower(s)
  {
    assert forall i :: 0 <= i < |s| ==> Lower(Lower(s))[i] == Lower(s)[i];
  }

  function DigitChar(d: nat): char
    requires d < 10
  {
    ('0' as int + d) as char
  }

  predicate IsDigit(c: char) {
    '0' <= c <= '9'
  }

  /** The decimal numeral of `n`, as Python's `str(n)` for a non-negative int. */
  function NatToDecimal(n: nat): (r: string)
    ensures r != []
    ensures forall i :: 0 <= i < |r| ==> IsDigit(r[i])
    ensures r[0] == '0' ==> r == "0"
    decreases n
  {
    if n < 10 then [DigitChar(n)] else NatToDecimal(n / 10) + [DigitChar(n % 10)]
  }

  /** The value of a string of decimal digits. */
  function DecimalValue(s: string): nat
    requires forall i :: 0 <= i < |s| ==> IsDigit(s[i])
    decreases |s|
  {
    if s == [] then 0
    else
      assert IsDigit(s[|s| - 1]);
      DecimalValue(s[..|s| - 1]) * 10 + (s[|s| - 1] as int - '0' as int)
  }

  lemma {:induction false} DecimalRoundTrip(n: nat)
    ensures DecimalValue(NatToDecimal(n)) == n
    decreases n
  {
    if n >= 10 {
      DecimalRoundTrip(n / 10);
      var r := NatToDecimal(n);
      assert r[..|r| - 1] == NatToDecimal(n / 10);
    }
  }

  /** `digits` is a non-empty numeral whose value is `m`. */
  predicate ReadsBackAs(digits: string, m: nat) {
    && digits != []
    && (forall i :: 0 <= i < |digits| ==> IsDigit(digits[i]))
    && DecimalValue(digits) == m
  }

  /** Python's `str(n)` for an int: a minus sign exactly for a negative
      number, then digits that read back as its magnitude. */
  function IntToString(n: int): (r: string)
    ensures r != [] && (r[0] == '-' <==> n < 0)
    ensures ReadsBackAs(if n < 0 then r[1..] else r, if n < 0 then -n else n)
  {
    var m: nat := if n < 0 then -n else n;
    DecimalRoundTrip(m);
    if n < 0 then "-" + NatToDecimal(m) else NatToDecimal(m)
  }
}

=== FILE: validation.dfy ===
/** The rule-based checks of the SQL validator (`SQLValidator` in
    tests/comprehensive_validation.py) over what its regular expressions
    extracted from the scripts, and its exit code.

    The regular-expression extraction and the file reading are not modelled:
    the definitions, calls, `USE` statements, script contents and syntax
    pattern hits they produce are the inputs. */
module Validation {
  import opened Text
  import opened Severities
  import ParamSplit
  import Registry

  datatype Category =
    | FileParsing | UndefinedFunction | ParameterMismatch | ContextInconsistency
    | MissingContext | DependencyOrder | SyntaxError | WarehouseDependency

  datatype ContextKind = Role | Warehouse | Database | Schema

  datatype SyntaxCheck = CommentSyntax | UuidInValues

  /** What an issue is about: the validator puts it into the free-text
      description, which is not modelled otherwise. */
  datatype Subject = FunctionName(name: string) | ContextKey(kind: ContextKind) | Pattern(check: SyntaxCheck) | NoSubject

  /** A `ValidationIssue` without its description and suggestion texts. */
  datatype ValidationIssue = ValidationIssue(
    severity: Severity, category: Category, filePath: string, line: int, subject: Subject)

  /** `CREATE [OR REPLACE] FUNCTION name(params)` as matched in a script. */
  datatype DefinitionMatch = DefinitionMatch(name: string, paramsText: string, filePath: string, line: int)

  /** A call `NAME(args)` of one of the known UDFs as matched in a script. */
  datatype CallMatch = CallMatch(name: string, argsText: string, filePath: string, line: int)

  datatype FunctionDefinition = FunctionDefinition(name: string, parameters: seq<string>, filePath: string, line: int)

  datatype FunctionCall = FunctionCall(name: string, parameters: seq<string>, filePath: string, line: int)

  /** Some issue of `issues` has this category and subject. */
  predicate Reported(issues: seq<ValidationIssue>, category: Category, subject: Subject) {
    exists i :: 0 <= i < |issues| && issues[i].category == category && issues[i].subject == subject
  }

  /** Some issue of `issues` is about this file. */
  predicate Flagged(issues: seq<ValidationIssue>, path: string) {
    exists i :: 0 <= i < |issues| && issues[i].filePath == path
  }

  lemma ReportedAppend(a: seq<ValidationIssue>, b: seq<ValidationIssue>, c: Category, subject: Subject)
    ensures Reported(a + b, c, subject) <==> Reported(a, c, subject) || Reported(b, c, subject)
  {
    if Reported(a, c, subject) {
      var i :| 0 <= i < |a| && a[i].category == c && a[i].subject == subject;
      assert (a + b)[i] == a[i];
    }
    if Reported(b, c, subject) {
      var i :| 0 <= i < |b| && b[i].category == c && b[i].subject == subject;
      assert (a + b)[|a| + i] == b[i];
    }
    if Reported(a + b, c, subject) {
      var i :| 0 <= i < |a + b| && (a + b)[i].category == c && (a + b)[i].subject == subject;
      if i < |a| {
        assert a[i] == (a + b)[i];
      } else {
        assert b[i - |a|] == (a + b)[i];
      }
    }
  }

  lemma FlaggedAppend(a: seq<ValidationIssue>, b: seq<ValidationIssue>, path: string)
    ensures Flagged(a + b, path) <==> Flagged(a, path) || Flagged(b, path)
  {
    if Flagged(a, path) {
      var i :| 0 <= i < |a| && a[i].filePath == path;
      assert (a + b)[i] == a[i];
    }
    if Flagged(b, path) {
      var i :| 0 <= i < |b| && b[i].filePath == path;
      assert (a + b)[|a| + i] == b[i];
    }
    if Flagged(a + b, path) {
      var i :| 0 <= i < |a + b| && (a + b)[i].filePath == path;
      if i < |a| {
        assert a[i] == (a + b)[i];
      } else {
        assert b[i - |a|] == (a + b)[i];
      }
    }
  }

  // ---------------------------------------------------------------------------
  // Function definitions and calls

  function ToDefinition(m: DefinitionMatch): FunctionDefinition {
    FunctionDefinition(Upper(m.name), ParamSplit.ParseParameters(m.paramsText), m.filePath, m.line)
  }

  function ToCall(m: CallMatch): FunctionCall {
    FunctionCall(Upper(m.name), ParamSplit.ParseCallParameters(m.argsText), m.filePath, m.line)
  }

  function DefinitionEntries(ms: seq<DefinitionMatch>): (r: seq<(string, FunctionDefinition)>)
    ensures |r| == |ms|
    ensures forall i :: 0 <= i < |ms| ==> r[i] == (Upper(ms[i].name), ToDefinition(ms[i]))
  {
    seq(|ms|, i requires 0 <= i < |ms| => (Upper(ms[i].name), ToDefinition(ms[i])))
  }

  /** `function_definitions`: every matched definition stored under its
      upper-cased name, in script order. */
  function CollectDefinitions(ms: seq<DefinitionMatch>): map<string, FunctionDefinition> {
    Registry.Overwrite(map[], DefinitionEntries(ms))
  }

  /** Names are registered case-insensitively, and of several definitions of
      one name the last one is kept. */
  lemma DefinitionsLastWins(ms: seq<DefinitionMatch>, i: nat)
    requires i < |ms|
    requires forall j :: i < j < |ms| ==> Upper(ms[j].name) != Upper(ms[i].name)
    ensures Upper(ms[i].name) in CollectDefinitions(ms)
    ensures CollectDefinitions(ms)[Upper(ms[i].name)] == ToDefinition(ms[i])
  {
    var entries := DefinitionEntries(ms);
    var k := Upper(ms[i].name);
    Registry.LastWins(map[], entries, k);
    var r := Registry.LastIndexOf(entries, k);
    assert entries[i].0 == k;
    assert r.Some? && r.value == i;
  }

  /** A name is defined exactly when some definition's upper-cased name is it. */
  lemma DefinedNames(ms: seq<DefinitionMatch>, name: string)
    ensures name in CollectDefinitions(ms) <==> exists i :: 0 <= i < |ms| && Upper(ms[i].name) == name
  {
    var entries := DefinitionEntries(ms);
    Registry.LastWins(map[], entries, name);
    var r := Registry.LastIndexOf(entries, name);
    if r.Some? {
      assert Upper(ms[r.value].name) == name;
    }
    if exists i :: 0 <= i < |ms| && Upper(ms[i].name) == name {
      var i :| 0 <= i < |ms| && Upper(ms[i].name) == name;
      assert entries[i].0 == name;
    }
  }

  /** The signature check of one call: an undefined name is one
      UNDEFINED_FUNCTION error and nothing else; a defined name is a
      PARAMETER_MISMATCH error exactly when the arities differ. */
  function CheckCall(defs: map<string, FunctionDefinition>, call: FunctionCall): (r: seq<ValidationIssue>)
    ensures |r| <= 1
    ensures forall i :: 0 <= i < |r| ==>
      (r[i].severity == Error && r[i].filePath == call.filePath
       && r[i].line == call.line && r[i].subject == FunctionName(call.name))
    ensures Reported(r, UndefinedFunction, FunctionName(call.name)) <==> call.name !in defs
    ensures Reported(r, ParameterMismatch, FunctionName(call.name)) <==>
      call.name in defs && |call.parameters| != |defs[call.name].parameters|
    ensures r == [] <==> CallMatchesDefinition(defs, call)
  {
    if call.name !in defs then
      var r := [ValidationIssue(Error, UndefinedFunction, call.filePath, call.line, FunctionName(call.name))];
      assert r[0].category == UndefinedFunction;
      r
    else if |call.parameters| != |defs[call.name].parameters| then
      var r := [ValidationIssue(Error, ParameterMismatch, call.filePath, call.line, FunctionName(call.name))];
      assert r[0].category == ParameterMismatch;
      r
    else []
  }

  predicate CallMatchesDefinition(defs: map<string, FunctionDefinition>, call: FunctionCall) {
    call.name in defs && |call.parameters| == |defs[call.name].parameters|
  }

  /** The call at index `j` names no definition or one of another arity. */
  predicate FaultyAt(defs: map<string, FunctionDefinition>, calls: seq<FunctionCall>, j: int) {
    0 <= j < |calls| && !CallMatchesDefinition(defs, calls[j])
  }

  /** The number of calls that name no definition or a definition of another arity. */
  function FaultyCalls(defs: map<string, FunctionDefinition>, calls: seq<FunctionCall>): nat
    decreases |calls|
  {
    if calls == [] then 0
    else FaultyCalls(defs, calls[..|calls| - 1]) + (if CallMatchesDefinition(defs, calls[|calls| - 1]) then 0 else 1)
  }

  /** `issue` is the signature ERROR for the faulty `call`: at its file and
      line, naming it, UNDEFINED_FUNCTION when its name has no definition and
      PARAMETER_MISMATCH otherwise. */
  predicate AboutCall(defs: map<string, FunctionDefinition>, issue: ValidationIssue, call: FunctionCall) {
    && !CallMatchesDefinition(defs, call)
    && issue.severity == Error
    && issue.filePath == call.filePath && issue.line == call.line
    && issue.subject == FunctionName(call.name)
    && issue.category == (if call.name in defs then ParameterMismatch else UndefinedFunction)
  }

  /** Some call of `calls` has this name and no definition. */
  predicate SomeUndefined(defs: map<string, FunctionDefinition>, calls: seq<FunctionCall>, n: string) {
    exists j :: 0 <= j < |calls| && calls[j].name == n && n !in defs
  }

  /** Some call of `calls` has this name and a definition of another arity. */
  predicate SomeMismatched(defs: map<string, FunctionDefinition>, calls: seq<FunctionCall>, n: string) {
    exists j :: 0 <= j < |calls| && calls[j].name == n && n in defs && |calls[j].parameters| != |defs[n].parameters|
  }

  /** The facts the signature check keeps for a list of calls. */
  ghost predicate SignatureIssues(defs: map<string, FunctionDefinition>, calls: seq<FunctionCall>, r: seq<ValidationIssue>) {
    && (forall i :: 0 <= i < |r| ==> exists j :: 0 <= j < |calls| && AboutCall(defs, r[i], calls[j]))
    && (forall j {:trigger FaultyAt(defs, calls, j)} :: FaultyAt(defs, calls, j) ==>
          exists i :: 0 <= i < |r| && AboutCall(defs, r[i], calls[j]))
    && (forall n :: Reported(r, UndefinedFunction, FunctionName(n)) <==> SomeUndefined(defs, calls, n))
    && (forall n :: Reported(r, ParameterMismatch, FunctionName(n)) <==> SomeMismatched(defs, calls, n))
  }

  /** `_validate_function_signatures`: one ERROR for each faulty call and none
      for the others. Every issue is the ERROR for one of the faulty calls,
      and every faulty call has its ERROR;
      UNDEFINED_FUNCTION is reported for a name exactly when some call of it
      has no definition, and PARAMETER_MISMATCH exactly when some call of it
      has a definition of another arity. */
  function ValidateFunctionSignatures(defs: map<string, FunctionDefinition>, calls: seq<FunctionCall>): (r: seq<ValidationIssue>)
    ensures |r| == FaultyCalls(defs, calls) <= |calls|
    ensures forall i :: 0 <= i < |r| ==> r[i].severity == Error
    ensures forall i :: 0 <= i < |r| ==> exists j :: 0 <= j < |calls| && AboutCall(defs, r[i], calls[j])
    ensures forall j {:trigger FaultyAt(defs, calls, j)} :: FaultyAt(defs, calls, j) ==>
      exists i :: 0 <= i < |r| && AboutCall(defs, r[i], calls[j])
    ensures forall n :: Reported(r, UndefinedFunction, FunctionName(n)) <==> SomeUndefined(defs, calls, n)
    ensures forall n :: Reported(r, ParameterMismatch, FunctionName(n)) <==> SomeMismatched(defs, calls, n)
    decreases |calls|
  {
    if calls == [] then []
    else
      var init := calls[..|calls| - 1];
      var r0 := ValidateFunctionSignatures(defs, init);
      var c := CheckCall(defs, calls[|calls| - 1]);
      assert forall i :: 0 <= i < |c| ==> (r0 + c)[|r0| + i] == c[i];
      SignaturesSnoc(defs, init, calls, r0, c);
      r0 + c
  }

  /** One more call adds its own `CheckCall` issues to what the earlier calls got. */
  lemma SignaturesSnoc(defs: map<string, FunctionDefinition>, init: seq<FunctionCall>, calls: seq<FunctionCall>,
                       r0: seq<ValidationIssue>, c: seq<ValidationIssue>)
    requires |calls| > 0 && init == calls[..|calls| - 1]
    requires SignatureIssues(defs, init, r0)
    requires c == CheckCall(defs, calls[|calls| - 1])
    ensures SignatureIssues(defs, calls, r0 + c)
  {
    var last := calls[|calls| - 1];
    assert forall j :: 0 <= j < |init| ==> init[j] == calls[j];
    forall i | 0 <= i < |r0 + c|
      ensures exists j :: 0 <= j < |calls| && AboutCall(defs, (r0 + c)[i], calls[j])
    {
      if i < |r0| {
        assert (r0 + c)[i] == r0[i];
        var j :| 0 <= j < |init| && AboutCall(defs, r0[i], init[j]);
        assert calls[j] == init[j];
      } else {
        assert (r0 + c)[i] == c[i - |r0|];
        assert AboutCall(defs, c[i - |r0|], last);
      }
    }
    forall j | FaultyAt(defs, calls, j)
      ensures exists i :: 0 <= i < |r0 + c| && AboutCall(defs, (r0 + c)[i], calls[j])
    {
      if j < |init| {
        assert calls[j] == init[j] && FaultyAt(defs, init, j);
        var i :| 0 <= i < |r0| && AboutCall(defs, r0[i], init[j]);
        assert (r0 + c)[i] == r0[i];
      } else {
        assert (r0 + c)[|r0|] == c[0];
        assert AboutCall(defs, c[0], last);
      }
    }
    forall n
      ensures Reported(r0 + c, UndefinedFunction, FunctionName(n)) <==> SomeUndefined(defs, calls, n)
      ensures Reported(r0 + c, ParameterMismatch, FunctionName(n)) <==> SomeMismatched(defs, calls, n)
    {
      ReportedAppend(r0, c, UndefinedFunction, FunctionName(n));
      ReportedAppend(r0, c, ParameterMismatch, FunctionName(n));
      CheckCallNames(defs, last, c, n);
      SomeSnoc(defs, init, calls, n);
    }
  }

  /** The issues of one call are about that call's name only. */
  lemma CheckCallNames(defs: map<string, FunctionDefinition>, call: FunctionCall, c: seq<ValidationIssue>, n: string)
    requires c == CheckCall(defs, call)
    ensures Reported(c, UndefinedFunction, FunctionName(n)) <==> call.name == n && n !in defs
    ensures Reported(c, ParameterMismatch, FunctionName(n)) <==>
      call.name == n && n in defs && |call.parameters| != |defs[n].parameters|
  {
    if Reported(c, UndefinedFunction, FunctionName(n)) || Reported(c, ParameterMismatch, FunctionName(n)) {
      assert c[0].subject == FunctionName(call.name);
    }
  }

  lemma SomeSnoc(defs: map<string, FunctionDefinition>, init: seq<FunctionCall>, calls: seq<FunctionCall>, n: string)
    requires |calls| > 0 && init == calls[..|calls| - 1]
    ensures SomeUndefined(defs, calls, n) <==>
      SomeUndefined(defs, init, n) || (calls[|calls| - 1].name == n && n !in defs)
    ensures SomeMismatched(defs, calls, n) <==>
      SomeMismatched(defs, init, n)
      || (calls[|calls| - 1].name == n && n in defs && |calls[|calls| - 1].parameters| != |defs[n].parameters|)
  {
    assert forall j :: 0 <= j < |init| ==> init[j] == calls[j];
    if SomeUndefined(defs, calls, n) {
      var j :| 0 <= j < |calls| && calls[j].name == n && n !in defs;
      if j < |init| { assert init[j] == calls[j]; }
    }
    if SomeMismatched(defs, calls, n) {
      var j :| 0 <= j < |calls| && calls[j].name == n && n in defs && |calls[j].parameters| != |defs[n].parameters|;
      if j < |init| { assert init[j] == calls[j]; }
    }
  }

  /** The signature check is silent exactly when every call names a
      definition of its arity. */
  lemma {:induction false} SignaturesClean(defs: map<string, FunctionDefinition>, calls: seq<FunctionCall>)
    ensures ValidateFunctionSignatures(defs, calls) == [] <==>
      forall j :: 0 <= j < |calls| ==> CallMatchesDefinition(defs, calls[j])
    decreases |calls|
  {
    if calls != [] {
      var init := calls[..|calls| - 1];
      SignaturesClean(defs, init);
      CleanSnoc(defs, init, calls, ValidateFunctionSignatures(defs, init), CheckCall(defs, calls[|calls| - 1]));
    }
  }

  lemma CleanSnoc(defs: map<string, FunctionDefinition>, init: seq<FunctionCall>, calls: seq<FunctionCall>,
                  r0: seq<ValidationIssue>, c: seq<ValidationIssue>)
    requires |calls| > 0 && init == calls[..|calls| - 1]
    requires r0 == [] <==> forall j :: 0 <= j < |init| ==> CallMatchesDefinition(defs, init[j])
    requires c == [] <==> CallMatchesDefinition(defs, calls[|calls| - 1])
    ensures r0 + c == [] <==> forall j :: 0 <= j < |calls| ==> CallMatchesDefinition(defs, calls[j])
  {
    assert forall j :: 0 <= j < |init| ==> init[j] == calls[j];
  }

  // ---------------------------------------------------------------------------
  // Context settings

  /** The keys of `expected_context`, in their order. */
  const ContextOrder: seq<ContextKind> := [Role, Warehouse, Database, Schema]

  function ExpectedValue(k: ContextKind): string {
    match k
    case Role => "SYSADMIN"
    case Warehouse => "RDF_DEMO_WH"
    case Database => "RDF_SEMANTIC_DB"
    case Schema => "SEMANTIC_VIEWS"
  }

  /** A `USE <kind> <value>` statement of a script, in document order. */
  datatype UseStatement = UseStatement(kind: ContextKind, value: string)

  function UseEntries(uses: seq<UseStatement>): (r: seq<(ContextKind, string)>)
    ensures |r| == |uses|
    ensures forall i :: 0 <= i < |uses| ==> r[i] == (uses[i].kind, uses[i].value)
  {
    seq(|uses|, i requires 0 <= i < |uses| => (uses[i].kind, uses[i].value))
  }

  /** `context_settings[path]`: for each kind, the value of the last `USE` of that kind. */
  function ContextOf(uses: seq<UseStatement>): map<ContextKind, string> {
    Registry.Overwrite(map[], UseEntries(uses))
  }

  /** The last `USE` of a kind gives the context's value for that kind. */
  lemma ContextLastWins(uses: seq<UseStatement>, k: ContextKind, i: nat)
    requires i < |uses| && uses[i].kind == k
    requires forall j :: i < j < |uses| ==> uses[j].kind != k
    ensures k in ContextOf(uses) && ContextOf(uses)[k] == uses[i].value
  {
    var entries := UseEntries(uses);
    Registry.LastWins(map[], entries, k);
    var r := Registry.LastIndexOf(entries, k);
    assert entries[i].0 == k;
    assert r.Some? && r.value == i;
  }

  /** A kind is set exactly when the script has a `USE` of that kind. */
  lemma ContextKeys(uses: seq<UseStatement>, k: ContextKind)
    ensures k in ContextOf(uses) <==> exists i :: 0 <= i < |uses| && uses[i].kind == k
  {
    var entries := UseEntries(uses);
    Registry.LastWins(map[], entries, k);
    var r := Registry.LastIndexOf(entries, k);
    if r.Some? {
      assert uses[r.value].kind == k;
    }
    if exists i :: 0 <= i < |uses| && uses[i].kind == k {
      var i :| 0 <= i < |uses| && uses[i].kind == k;
      assert entries[i].0 == k;
    }
  }

  /** One script's path and its `USE` context. */
  datatype ScriptContext = ScriptContext(path: string, settings: map<ContextKind, string>)

  predicate IsSnowsightDeploy(path: string) {
    Contains(path, "deploy_via_snowsight.sql")
  }

  predicate IsUdfScript(path: string) {
    Contains(path, "python_udfs")
  }

  predicate Inconsistent(sc: ScriptContext, k: ContextKind) {
    k in sc.settings && sc.settings[k] != ExpectedValue(k)
  }

  predicate MissingInUdf(sc: ScriptContext, k: ContextKind) {
    k !in sc.settings && IsUdfScript(sc.path)
  }

  /** The issues a context check reports are a WARNING for an inconsistent
      value or an ERROR for a missing one, about the script's own path. */
  predicate ContextShaped(sc: ScriptContext, r: seq<ValidationIssue>) {
    forall i :: 0 <= i < |r| ==>
      (&& r[i].filePath == sc.path
       && r[i].subject.ContextKey?
       && ((r[i].category == ContextInconsistency && r[i].severity == Warning)
           || (r[i].category == MissingContext && r[i].severity == Error)))
  }

  function KindIssues(sc: ScriptContext, k: ContextKind): seq<ValidationIssue> {
    if Inconsistent(sc, k) then
      [ValidationIssue(Warning, ContextInconsistency, sc.path, 0, ContextKey(k))]
    else if MissingInUdf(sc, k) then
      [ValidationIssue(Error, MissingContext, sc.path, 0, ContextKey(k))]
    else []
  }

  function KindsIssues(sc: ScriptContext, kinds: seq<ContextKind>): seq<ValidationIssue>
    decreases |kinds|
  {
    if kinds == [] then []
    else KindsIssues(sc, kinds[..|kinds| - 1]) + KindIssues(sc, kinds[|kinds| - 1])
  }

  lemma {:induction false} KindsIssuesReport(sc: ScriptContext, kinds: seq<ContextKind>, k: ContextKind)
    ensures var r := KindsIssues(sc, kinds);
      && (Reported(r, ContextInconsistency, ContextKey(k)) <==> k in kinds && Inconsistent(sc, k))
      && (Reported(r, MissingContext, ContextKey(k)) <==> k in kinds && MissingInUdf(sc, k))
      && ContextShaped(sc, r)
    decreases |kinds|
  {
    if kinds != [] {
      var init := kinds[..|kinds| - 1];
      var last := kinds[|kinds| - 1];
      KindsIssuesReport(sc, init, k);
      assert kinds == init + [last];
      var a := KindsIssues(sc, init);
      var b := KindIssues(sc, last);
      ReportedAppend(a, b, ContextInconsistency, ContextKey(k));
      ReportedAppend(a, b, MissingContext, ContextKey(k));
      if b != [] {
        assert b[0].subject == ContextKey(last);
      }
      assert forall i :: 0 <= i < |a| ==> (a + b)[i] == a[i];
      assert forall i :: 0 <= i < |b| ==> (a + b)[|a| + i] == b[i];
    }
  }

  /** `_validate_context_consistency` for one script. */
  function CheckContext(sc: ScriptContext): seq<ValidationIssue> {
    if IsSnowsightDeploy(sc.path) then [] else KindsIssues(sc, ContextOrder)
  }

  /** A script other than the Snowsight deployment script gets a WARNING for
      each key set to a value other than the expected one, and, when it is a
      UDF script, an ERROR for each key it does not set; nothing else. */
  lemma CheckContextReports(sc: ScriptContext, k: ContextKind)
    ensures var r := CheckContext(sc);
      && (IsSnowsightDeploy(sc.path) ==> r == [])
      && (Reported(r, ContextInconsistency, ContextKey(k)) <==> !IsSnowsightDeploy(sc.path) && Inconsistent(sc, k))
      && (Reported(r, MissingContext, ContextKey(k)) <==> !IsSnowsightDeploy(sc.path) && MissingInUdf(sc, k))
      && ContextShaped(sc, r)
  {
    KindsIssuesReport(sc, ContextOrder, k);
    assert k in ContextOrder by {
      assert k == ContextOrder[0] || k == ContextOrder[1] || k == ContextOrder[2] || k == ContextOrder[3];
    }
  }

  function ValidateContextConsistency(scripts: seq<ScriptContext>): seq<ValidationIssue>
    decreases |scripts|
  {
    if scripts == [] then []
    else ValidateContextConsistency(scripts[..|scripts| - 1]) + CheckContext(scripts[|scripts| - 1])
  }

  /** How many of `kinds` a UDF script leaves unset. */
  function MissingKinds(sc: ScriptContext, kinds: seq<ContextKind>): nat
    decreases |kinds|
  {
    if kinds == [] then 0
    else MissingKinds(sc, kinds[..|kinds| - 1]) + (if MissingInUdf(sc, kinds[|kinds| - 1]) then 1 else 0)
  }

  /** The missing keys of every script the context check looks at. */
  function MissingContextCount(scripts: seq<ScriptContext>): nat
    decreases |scripts|
  {
    if scripts == [] then 0
    else
      var last := scripts[|scripts| - 1];
      MissingContextCount(scripts[..|scripts| - 1])
      + (if IsSnowsightDeploy(last.path) then 0 else MissingKinds(last, ContextOrder))
  }

  /** The ERRORs of the context check of one script are its missing keys. */
  lemma {:induction false} KindsErrorCount(sc: ScriptContext, kinds: seq<ContextKind>)
    ensures ErrorCount(KindsIssues(sc, kinds)) == MissingKinds(sc, kinds)
    decreases |kinds|
  {
    if kinds != [] {
      var init := kinds[..|kinds| - 1];
      KindsErrorCount(sc, init);
      ErrorCountAppend(KindsIssues(sc, init), KindIssues(sc, kinds[|kinds| - 1]));
      KindErrorCount(sc, kinds[|kinds| - 1]);
    }
  }

  lemma KindErrorCount(sc: ScriptContext, k: ContextKind)
    ensures ErrorCount(KindIssues(sc, k)) == if MissingInUdf(sc, k) then 1 else 0
  {
    var b := KindIssues(sc, k);
    if b != [] {
      assert b[..0] == [];
    }
  }

  /** The context check raises one ERROR per key missing from a UDF script
      (other than the Snowsight deployment script); its WARNINGs do not count. */
  lemma {:induction false} ContextErrorCount(scripts: seq<ScriptContext>)
    ensures ErrorCount(ValidateContextConsistency(scripts)) == MissingContextCount(scripts)
    decreases |scripts|
  {
    if scripts != [] {
      var init := scripts[..|scripts| - 1];
      var last := scripts[|scripts| - 1];
      ContextErrorCount(init);
      ErrorCountAppend(ValidateContextConsistency(init), CheckContext(last));
      if !IsSnowsightDeploy(last.path) {
        KindsErrorCount(last, ContextOrder);
      }
    }
  }

  predicate UdfLacksWarehouse(sc: ScriptContext) {
    IsUdfScript(sc.path) && Warehouse !in sc.settings
  }

  /** The number of UDF scripts that set no warehouse. */
  function UdfScriptsWithoutWarehouse(scripts: seq<ScriptContext>): nat
    decreases |scripts|
  {
    if scripts == [] then 0
    else UdfScriptsWithoutWarehouse(scripts[..|scripts| - 1]) + (if UdfLacksWarehouse(scripts[|scripts| - 1]) then 1 else 0)
  }

  /** `_validate_dependency_order`: one ERROR per UDF script that sets no warehouse. */
  function ValidateDependencyOrder(scripts: seq<ScriptContext>): (r: seq<ValidationIssue>)
    ensures |r| == UdfScriptsWithoutWarehouse(scripts)
    ensures forall i :: 0 <= i < |r| ==> r[i].severity == Error && r[i].category == DependencyOrder
    decreases |scripts|
  {
    if scripts == [] then []
    else
      var last := scripts[|scripts| - 1];
      ValidateDependencyOrder(scripts[..|scripts| - 1])
      + (if UdfLacksWarehouse(last) then [ValidationIssue(Error, DependencyOrder, last.path, 0, ContextKey(Warehouse))] else [])
  }

  /** A file is flagged by the dependency check exactly when it is a UDF
      script without a `USE WAREHOUSE`. */
  lemma {:induction false} DependencyOrderFlags(scripts: seq<ScriptContext>, path: string)
    ensures Flagged(ValidateDependencyOrder(scripts), path) <==>
      exists j :: 0 <= j < |scripts| && scripts[j].path == path && UdfLacksWarehouse(scripts[j])
    decreases |scripts|
  {
    if scripts != [] {
      var init := scripts[..|scripts| - 1];
      var last := scripts[|scripts| - 1];
      DependencyOrderFlags(init, path);
      var tail := if UdfLacksWarehouse(last) then [ValidationIssue(Error, DependencyOrder, last.path, 0, ContextKey(Warehouse))] else [];
      FlaggedAppend(ValidateDependencyOrder(init), tail, path);
      if tail != [] {
        assert tail[0].filePath == last.path;
      }
      assert forall j :: 0 <= j < |init| ==> init[j] == scripts[j];
      if exists j :: 0 <= j < |scripts| && scripts[j].path == path && UdfLacksWarehouse(scripts[j]) {
        var j :| 0 <= j < |scripts| && scripts[j].path == path && UdfLacksWarehouse(scripts[j]);
        if j < |init| {
          assert init[j] == scripts[j];
        }
      }
    }
  }

  // ---------------------------------------------------------------------------
  // Warehouse usage

  predicate CreatesWarehouse(content: string) {
    Contains(Upper(content), "CREATE WAREHOUSE")
  }

  predicate UsesWarehouse(content: string) {
    Contains(Upper(content), "USE WAREHOUSE")
  }

  /** `(warehouse_created, warehouse_used)` after the loop over the scripts' contents. */
  function WarehouseFlags(contents: seq<string>): (bool, bool)
    decreases |contents|
  {
    if contents == [] then (false, false)
    else
      var flags := WarehouseFlags(contents[..|contents| - 1]);
      var c := contents[|contents| - 1];
      (flags.0 || CreatesWarehouse(c), flags.1 || UsesWarehouse(c))
  }

  lemma {:induction false} WarehouseFlagsMeaning(contents: seq<string>)
    ensures WarehouseFlags(contents).0 <==> exists i :: 0 <= i < |contents| && CreatesWarehouse(contents[i])
    ensures WarehouseFlags(contents).1 <==> exists i :: 0 <= i < |contents| && UsesWarehouse(contents[i])
    decreases |contents|
  {
    if contents != [] {
      var init := contents[..|contents| - 1];
      WarehouseFlagsMeaning(init);
      assert forall i :: 0 <= i < |init| ==> init[i] == contents[i];
    }
  }

  /** `_validate_warehouse_usage`: a WARNING exactly when some script uses a
      warehouse and none creates one. */
  function ValidateWarehouseUsage(contents: seq<string>): (r: seq<ValidationIssue>)
    ensures r != [] <==>
      (exists i :: 0 <= i < |contents| && UsesWarehouse(contents[i])) &&
      (forall i :: 0 <= i < |contents| ==> !CreatesWarehouse(contents[i]))
    ensures forall i :: 0 <= i < |r| ==> r[i].severity == Warning && r[i].category == WarehouseDependency
    ensures |r| <= 1
    ensures forall i :: 0 <= i < |r| ==> r[i].filePath == "" && r[i].line == 0 && r[i].subject == NoSubject
  {
    var flags := WarehouseFlags(contents);
    WarehouseFlagsMeaning(contents);
    if flags.1 && !flags.0 then [ValidationIssue(Warning, WarehouseDependency, "", 0, NoSubject)] else []
  }

  // ---------------------------------------------------------------------------
  // Syntax patterns and unreadable files

  /** A match of one of the syntax patterns in a script. */
  datatype SyntaxHit = SyntaxHit(check: SyntaxCheck, filePath: string, line: int)

  /** `_validate_syntax_patterns`: every pattern match is an ERROR at its place. */
  function ValidateSyntaxPatterns(hits: seq<SyntaxHit>): (r: seq<ValidationIssue>)
    ensures |r| == |hits|
    ensures forall i :: 0 <= i < |r| ==>
      (r[i].severity == Error && r[i].category == SyntaxError && r[i].subject == Pattern(hits[i].check)
       && r[i].filePath == hits[i].filePath && r[i].line == hits[i].line)
    ensures ErrorCount(r) == |hits|
    ensures forall c :: Reported(r, SyntaxError, Pattern(c)) <==> exists i :: 0 <= i < |hits| && hits[i].check == c
  {
    var r := seq(|hits|, i requires 0 <= i < |hits| =>
      ValidationIssue(Error, SyntaxError, hits[i].filePath, hits[i].line, Pattern(hits[i].check)));
    AllErrorsCount(r);
    r
  }

  /** The ERROR `_parse_sql_file` records for each script it fails to read. */
  function UnreadableFiles(paths: seq<string>): (r: seq<ValidationIssue>)
    ensures |r| == |paths|
    ensures forall i :: 0 <= i < |r| ==>
      (r[i].severity == Error && r[i].category == FileParsing && r[i].filePath == paths[i] && r[i].line == 0)
    ensures ErrorCount(r) == |paths|
    ensures forall p :: Flagged(r, p) <==> p in paths
  {
    var r := seq(|paths|, i requires 0 <= i < |paths| => ValidationIssue(Error, FileParsing, paths[i], 0, NoSubject));
    AllErrorsCount(r);
    r
  }

  // ---------------------------------------------------------------------------
  // The whole run and its exit code

  /** One readable script: its path, its `USE` statements and its text. */
  datatype Script = Script(path: string, uses: seq<UseStatement>, content: string)

  /** Everything the extraction step found, in script order. */
  datatype Extracted = Extracted(
    unreadable: seq<string>,
    definitions: seq<DefinitionMatch>,
    calls: seq<CallMatch>,
    scripts: seq<Script>,
    syntaxHits: seq<SyntaxHit>)

  /** `context_settings` of every readable script: a kind is set exactly when
      the script has a `USE` of that kind. */
  function Contexts(scripts: seq<Script>): (r: seq<ScriptContext>)
    ensures |r| == |scripts|
    ensures forall i :: 0 <= i < |scripts| ==> r[i].path == scripts[i].path
    ensures forall i, k :: 0 <= i < |scripts| ==>
      (k in r[i].settings <==> exists j :: 0 <= j < |scripts[i].uses| && scripts[i].uses[j].kind == k)
    ensures forall i :: 0 <= i < |scripts| ==> r[i].settings == ContextOf(scripts[i].uses)
  {
    var r := seq(|scripts|, i requires 0 <= i < |scripts| => ScriptContext(scripts[i].path, ContextOf(scripts[i].uses)));
    ContextsKeys(scripts, r);
    r
  }

  lemma ContextsKeys(scripts: seq<Script>, r: seq<ScriptContext>)
    requires |r| == |scripts|
    requires forall i :: 0 <= i < |scripts| ==> r[i].settings == ContextOf(scripts[i].uses)
    ensures forall i, k :: 0 <= i < |scripts| ==>
      (k in r[i].settings <==> exists j :: 0 <= j < |scripts[i].uses| && scripts[i].uses[j].kind == k)
  {
    forall i, k | 0 <= i < |scripts|
      ensures k in r[i].settings <==> exists j :: 0 <= j < |scripts[i].uses| && scripts[i].uses[j].kind == k
    {
      ContextKeys(scripts[i].uses, k);
    }
  }

  function Contents(scripts: seq<Script>): (r: seq<string>)
    ensures |r| == |scripts|
    ensures forall i :: 0 <= i < |scripts| ==> r[i] == scripts[i].content
  {
    seq(|scripts|, i requires 0 <= i < |scripts| => scripts[i].content)
  }

  function Calls(ms: seq<CallMatch>): (r: seq<FunctionCall>)
    ensures |r| == |ms|
    ensures forall i :: 0 <= i < |ms| ==> r[i] == ToCall(ms[i])
  {
    seq(|ms|, i requires 0 <= i < |ms| => ToCall(ms[i]))
  }

  /** `validate_all`: the issues of every check, in the order the checks run. */
  function ValidateAll(x: Extracted): seq<ValidationIssue> {
    var contexts := Contexts(x.scripts);
    UnreadableFiles(x.unreadable)
    + ValidateFunctionSignatures(CollectDefinitions(x.definitions), Calls(x.calls))
    + ValidateContextConsistency(contexts)
    + ValidateDependencyOrder(contexts)
    + ValidateSyntaxPatterns(x.syntaxHits)
    + ValidateWarehouseUsage(Contents(x.scripts))
  }

  /** The number of ERROR issues, counted as the list comprehension in `main` does. */
  function ErrorCount(issues: seq<ValidationIssue>): (r: nat)
    ensures r == 0 <==> forall i :: 0 <= i < |issues| ==> issues[i].severity != Error
    ensures r <= |issues|
    decreases |issues|
  {
    if issues == [] then 0
    else
      var init := issues[..|issues| - 1];
      var r0 := ErrorCount(init);
      assert forall i :: 0 <= i < |init| ==> init[i] == issues[i];
      r0 + (if issues[|issues| - 1].severity == Error then 1 else 0)
  }

  lemma {:induction false} ErrorCountAppend(a: seq<ValidationIssue>, b: seq<ValidationIssue>)
    ensures ErrorCount(a + b) == ErrorCount(a) + ErrorCount(b)
    decreases |b|
  {
    if b == [] {
      assert a + b == a;
    } else {
      var b0 := b[..|b| - 1];
      ErrorCountAppend(a, b0);
      assert (a + b)[..|a + b| - 1] == a + b0;
      assert (a + b)[|a + b| - 1] == b[|b| - 1];
    }
  }

  lemma {:induction false} AllErrorsCount(issues: seq<ValidationIssue>)
    requires forall i :: 0 <= i < |issues| ==> issues[i].severity == Error
    ensures ErrorCount(issues) == |issues|
    decreases |issues|
  {
    if issues != [] {
      AllErrorsCount(issues[..|issues| - 1]);
    }
  }

  /** The exit code of the validator is the number of unreadable files, faulty
      calls, missing contexts, UDF scripts without a warehouse and syntax
      hits; inconsistent contexts and the warehouse check never count. */
  lemma ExitCodeBreakdown(x: Extracted)
    ensures var contexts := Contexts(x.scripts);
      ErrorCount(ValidateAll(x)) ==
        |x.unreadable|
        + FaultyCalls(CollectDefinitions(x.definitions), Calls(x.calls))
        + MissingContextCount(contexts)
        + UdfScriptsWithoutWarehouse(contexts)
        + |x.syntaxHits|
  {
    var contexts := Contexts(x.scripts);
    var a := UnreadableFiles(x.unreadable);
    var b := ValidateFunctionSignatures(CollectDefinitions(x.definitions), Calls(x.calls));
    var c := ValidateContextConsistency(contexts);
    var d := ValidateDependencyOrder(contexts);
    var e := ValidateSyntaxPatterns(x.syntaxHits);
    var f := ValidateWarehouseUsage(Contents(x.scripts));
    assert ValidateAll(x) == a + b + c + d + e + f;
    SixPartCount(a, b, c, d, e, f);
    AllErrorsCount(b);
    ContextErrorCount(contexts);
  }

  lemma SixPartCount(a: seq<ValidationIssue>, b: seq<ValidationIssue>, c: seq<ValidationIssue>,
                     d: seq<ValidationIssue>, e: seq<ValidationIssue>, f: seq<ValidationIssue>)
    requires forall i :: 0 <= i < |a| ==> a[i].severity == Error
    requires forall i :: 0 <= i < |d| ==> d[i].severity == Error
    requires forall i :: 0 <= i < |e| ==> e[i].severity == Error
    requires forall i :: 0 <= i < |f| ==> f[i].severity != Error
    ensures ErrorCount(a + b + c + d + e + f) == |a| + ErrorCount(b) + ErrorCount(c) + |d| + |e|
  {
    ErrorCountAppend(a, b);
    ErrorCountAppend(a + b, c);
    ErrorCountAppend(a + b + c, d);
    ErrorCountAppend(a + b + c + d, e);
    ErrorCountAppend(a + b + c + d + e, f);
    AllErrorsCount(a);
    AllErrorsCount(d);
    AllErrorsCount(e);
  }

  /** A UDF script that sets no warehouse costs two ERRORs: one from the
      context check (unless it is the Snowsight deployment script) and one
      from the dependency-order check. */
  lemma MissingWarehouseCountsTwice(sc: ScriptContext)
    requires UdfLacksWarehouse(sc) && !IsSnowsightDeploy(sc.path)
    ensures ErrorCount(ValidateContextConsistency([sc]) + ValidateDependencyOrder([sc])) >= 2
  {
    SingleScript(sc);
    MissingWarehouseContextError(sc);
    OneMoreError(ValidateContextConsistency([sc]), ValidateDependencyOrder([sc]));
  }

  lemma OneMoreError(c: seq<ValidationIssue>, d: seq<ValidationIssue>)
    requires ErrorCount(c) >= 1
    requires |d| == 1 && d[0].severity == Error
    ensures ErrorCount(c + d) >= 2
  {
    ErrorCountAppend(c, d);
    AllErrorsCount(d);
  }

  lemma SingleScript(sc: ScriptContext)
    ensures ValidateContextConsistency([sc]) == CheckContext(sc)
    ensures UdfLacksWarehouse(sc) ==> |ValidateDependencyOrder([sc])| == 1
  {
    assert [sc][..0] == [];
  }

  lemma MissingWarehouseContextError(sc: ScriptContext)
    requires UdfLacksWarehouse(sc) && !IsSnowsightDeploy(sc.path)
    ensures ErrorCount(CheckContext(sc)) >= 1
  {
    CheckContextReports(sc, Warehouse);
    var c := CheckContext(sc);
    assert MissingInUdf(sc, Warehouse);
    var i :| 0 <= i < |c| && c[i].category == MissingContext && c[i].subject == ContextKey(Warehouse);
    ErrorCountAtLeastOne(c, i);
  }

  lemma ErrorCountAtLeastOne(issues: seq<ValidationIssue>, i: nat)
    requires i < |issues| && issues[i].severity == Error
    ensures ErrorCount(issues) >= 1
  {
    assert !(forall j :: 0 <= j < |issues| ==> issues[j].severity != Error);
  }

  // ---------------------------------------------------------------------------
  // Exit status

  /** The status a POSIX parent sees after `sys.exit(n)` for a non-negative
      `n`: only the low eight bits of the code survive. */
  function ProcessExitStatus(issues: seq<ValidationIssue>): (r: nat)
    ensures r < 256
    ensures ErrorCount(issues) < 256 ==> r == ErrorCount(issues)
  {
    ErrorCount(issues) % 256
  }

  function ErrorIssues(n: nat): (r: seq<ValidationIssue>)
    ensures |r| == n
    ensures forall i :: 0 <= i < n ==> r[i].severity == Error
  {
    seq(n, i requires 0 <= i < n => ValidationIssue(Error, SyntaxError, "", i, NoSubject))
  }

  /** With 256 ERROR issues the validator's process reports success. */
  lemma ExitStatusWrapsAt256()
    ensures var issues := ErrorIssues(256);
      ErrorCount(issues) == 256 && ProcessExitStatus(issues) == 0
  {
    AllErrorsCount(ErrorIssues(256));
  }

  /** The exit status with the count clamped to 255, so that it is zero
      exactly when there is no ERROR. */
  function SaturatedExitStatus(issues: seq<ValidationIssue>): (r: nat)
    ensures r < 256
    ensures r == 0 <==> ErrorCount(issues) == 0
    ensures ErrorCount(issues) < 256 ==> r == ErrorCount(issues)
  {
    var n := ErrorCount(issues);
    if n > 255 then 255 else n
  }
}
